=== FILE: README.md ===
# android-simple-tooltip, modelled in Dafny

A model of the core of the android-simple-tooltip library, in both of its
copies: the thumbtack variant (with anchor bias and window padding) and the
original douglasjunior variant. The library shows a popup next to an anchor
view, with a triangular arrow pointing at the anchor and an optional dimming
overlay with a cut-out around the anchor.

Modules:

- `KotlinNum` (`kotlin_num.dfy`): the Kotlin numeric conversions the code relies on: `Float.toInt()` truncation with saturation, `Int` wrap-around, `Int` halving, `ushr(24)`.
- `TooltipTypes` (`tooltip_types.dfy`): gravities (with an `Other` case for unsupported codes), arrow direction codes LEFT=0, TOP=1, RIGHT=2, BOTTOM=3, AUTO=4 (distinct by definition), the `IllegalArgumentException` messages, the two variants.
- `Geometry` (`geometry.dfy`): `SimpleTooltipUtils`: view rectangles, density conversion, `setWidth`, the gravity-to-arrow table, `findFrameLayout`.
- `ArrowShape` (`arrow_shape.dfy`): `ArrowDrawable` (identical logic in both copies): triangle vertices, the lazily cached path, opacity classification.
- `OverlayMask` (`overlay_mask.dfy`): `OverlayView`: the cut-out, its shape, and the `invalidated`/bitmap cache.
- `Placement` (`placement.dfy`): popup location per gravity, the arrow clamp with bias and seam nudge, the animation axis.
- `Construction` (`construction.dfy`): the `init` block and `configContentView`.
- `Touch` (`touch.dfy`): the popup's touch interceptor and the overlay's touch listener.
- `Lifecycle` (`lifecycle.dfy`): `show`, the posted display, the layout phases, `dismiss`, `onDismiss`, the animation restart rule, as a pure state machine over host events.

Kotlin `Float` is modelled as exact `real`; every `toInt()` is modelled as
truncation toward zero. Host callbacks (global layout, the posted display,
the window closing itself, animation end, touches) are events given to
`Lifecycle.Step`; the display density, view locations and measured sizes are
parameters.

The model follows the code where a reader might expect otherwise: `show()`
on a dismissed tooltip throws `IllegalArgumentException`, a second
`dismiss()` silently does nothing, and `isShowing` (the host window's own
flag) becomes true as soon as the posted display puts the window on screen,
before the reveal listener makes the content visible, not only once the
tooltip is revealed.

## Model

| member | source | states |
|---|---|---|
| KotlinNum.ToInt | library/src/main/java/io/github/thumbtack/androidSimpleTooltip/SimpleTooltip.kt:175-176 | `Float.toInt()` truncates toward zero: inside the `Int` range the result has the sign of its argument, is no larger in magnitude and is less than one away; outside it saturates at the nearer bound |
| KotlinNum.Wrap32 | library/src/main/java/io/github/thumbtack/androidSimpleTooltip/SimpleTooltipUtils.kt:53-54 | an `Int` sum such as `location + measuredWidth` equals the mathematical sum when that fits in 32 bits and is congruent to it modulo 2^32 otherwise |
| KotlinNum.Half | library/src/main/java/io/github/thumbtack/androidSimpleTooltip/ArrowDrawable.kt:59 | `Int` halving of a bounds extent: for a non-negative extent the half is between 0 and the extent and twice it misses the extent by at most one |
| KotlinNum.TopByte | library/src/main/java/io/github/thumbtack/androidSimpleTooltip/ArrowDrawable.kt:111 | `color.ushr(24)` is the alpha byte, 0..255, the top eight bits of the colour read unsigned |
| KotlinNum.ToIntBetween | library/src/main/java/io/github/thumbtack/androidSimpleTooltip/SimpleTooltip.kt:175-176 | truncating a value between two non-negative bounds in the `Int` range lands less than a pixel below the lower bound and not above the upper one, and less than a pixel from the value |
| KotlinNum.ToIntOfWhole | library/src/main/java/io/github/thumbtack/androidSimpleTooltip/SimpleTooltip.kt:159-160 | `toInt()` of a whole number in the `Int` range gives that number back |
| TooltipTypes.GravityOf | library/src/main/java/io/github/thumbtack/androidSimpleTooltip/SimpleTooltipUtils.kt:88-97 | a gravity code falls into the unsupported case exactly when it is none of START, END, TOP, BOTTOM, CENTER, and keeps its code |
| TooltipTypes.GravityCodeRoundTrip | library/src/main/java/io/github/thumbtack/androidSimpleTooltip/SimpleTooltipUtils.kt:89-94 | the five supported gravity codes decode back to their gravity, so they are pairwise distinct |
| Geometry.RectAt | library/src/main/java/io/github/thumbtack/androidSimpleTooltip/SimpleTooltipUtils.kt:48-68 | a view rectangle starts at the view location and, without `Int` overflow, is exactly the measured width and height |
| Geometry.RectOnScreen | library/src/main/java/io/github/thumbtack/androidSimpleTooltip/SimpleTooltipUtils.kt:48-57 | the screen rectangle has the on-screen location as its left/top corner and the measured size as its extent (no overflow) |
| Geometry.RectInWindow | library/src/main/java/io/github/thumbtack/androidSimpleTooltip/SimpleTooltipUtils.kt:59-68 | the window rectangle has the in-window location as its left/top corner and the measured size as its extent (no overflow) |
| Geometry.PxFromDp | library/src/main/java/io/github/thumbtack/androidSimpleTooltip/SimpleTooltipUtils.kt:74-76 | for a positive density, dividing the pixel value by the density gives back the dp value |
| Geometry.DpFromPx | library/src/main/java/io/github/thumbtack/androidSimpleTooltip/SimpleTooltipUtils.kt:70-72 | multiplying the dp value by the density gives back the pixel value |
| Geometry.DensityRoundTrip | library/src/main/java/io/github/thumbtack/androidSimpleTooltip/SimpleTooltipUtils.kt:70-76 | pixel-to-dp and dp-to-pixel conversions are mutually inverse in both orders for a positive density |
| Geometry.SetWidth | library/src/main/java/io/github/thumbtack/androidSimpleTooltip/SimpleTooltipUtils.kt:78-86 | the forced layout width is the requested width truncated (between width-1 and width); the height is kept, or is the view height when the view had no parameters |
| Geometry.GravityToArrowDirection | library/src/main/java/io/github/thumbtack/androidSimpleTooltip/SimpleTooltipUtils.kt:88-97 | AUTO resolution is the table START→RIGHT, END→LEFT, TOP→BOTTOM, BOTTOM→TOP, CENTER→TOP; any other gravity gives the IllegalArgumentException with its message |
| Geometry.FindFrameLayout | library/src/main/java/io/github/thumbtack/androidSimpleTooltip/SimpleTooltipUtils.kt:162-168 | the lookup descends to the only child exactly when the root has one child and it is a FrameLayout; otherwise the root itself is returned |
| ArrowShape.UpdatePath | library/src/main/java/io/github/douglasjunior/androidSimpleTooltip/ArrowDrawable.kt:54-85 | every path is closed; a concrete direction gives four vertices ending where they began; any other direction (AUTO included) gives the empty path |
| ArrowShape.ArrowPointsInItsDirection | library/src/main/java/io/github/thumbtack/androidSimpleTooltip/ArrowDrawable.kt:56-83 | each triangle points where its direction says: the first vertex is at the far edge for LEFT and at the origin otherwise, the tip is a full bounds extent beyond a base that is perpendicular to the direction and spans the bounds, the tip is at the halved span, and all vertices stay inside the bounds |
| ArrowShape.NewDrawable | library/src/main/java/io/github/thumbtack/androidSimpleTooltip/ArrowDrawable.kt:35-46 | a new drawable has no path yet, paints in the given colour and has no colour filter |
| ArrowShape.OnBoundsChange | library/src/main/java/io/github/thumbtack/androidSimpleTooltip/ArrowDrawable.kt:48-51 | a bounds change always leaves a path that is the outline of the new bounds, keeping direction and paint |
| ArrowShape.SetBounds | library/src/main/java/io/github/thumbtack/androidSimpleTooltip/ArrowDrawable.kt:48-51 | setting bounds keeps the cached path consistent with the current bounds, and keeps direction and paint |
| ArrowShape.Draw | library/src/main/java/io/github/thumbtack/androidSimpleTooltip/ArrowDrawable.kt:87-92 | draw uses the cached path when present and otherwise builds the outline of the current bounds and caches it, changing nothing else |
| ArrowShape.DrawShowsCurrentBounds | library/src/main/java/io/github/douglasjunior/androidSimpleTooltip/ArrowDrawable.kt:48-92 | after any sequence of bounds changes, draw shows the outline of the current bounds |
| ArrowShape.GetOpacity | library/src/main/java/io/github/douglasjunior/androidSimpleTooltip/ArrowDrawable.kt:106-116 | opaque exactly when there is no colour filter and alpha is 255; transparent exactly when no filter and alpha 0; translucent otherwise |
| ArrowShape.SetColor | library/src/main/java/io/github/thumbtack/androidSimpleTooltip/ArrowDrawable.kt:98-100 | the whole colour becomes the argument while the filter, path, direction and bounds are kept; so without a filter the new colour is opaque exactly at alpha 255 and transparent exactly at alpha 0, and with one it stays translucent |
| ArrowShape.SetColorFilter | library/src/main/java/io/github/thumbtack/androidSimpleTooltip/ArrowDrawable.kt:102-104 | the filter flag becomes the argument and the colour, path, direction and bounds are kept; a filter makes the arrow translucent, and clearing it (`null`) hands the opacity back to the alpha byte, opaque exactly at 255 and transparent exactly at 0 |
| ArrowShape.ClearedFilterRestoresOpacity | library/src/main/java/io/github/thumbtack/androidSimpleTooltip/ArrowDrawable.kt:102-116 | setting and then clearing a filter gives back the drawable, and so the opacity, it had before |
| ArrowShape.SetAlpha | library/src/main/java/io/github/thumbtack/androidSimpleTooltip/ArrowDrawable.kt:94-96 | the alpha byte becomes the given value while the red, green and blue bytes, the filter, the path, the direction and the bounds are kept |
| ArrowShape.AlphaDecidesOpacity | library/src/main/java/io/github/thumbtack/androidSimpleTooltip/ArrowDrawable.kt:106-116 | without a filter, alpha 255 is the only opaque value and alpha 0 the only transparent one |
| OverlayMask.ShapeOf | library/src/main/java/io/github/thumbtack/androidSimpleTooltip/OverlayView.kt:105-109 | only the rectangular code cuts a rectangle; every other value cuts an oval |
| OverlayMask.CutOutRect | library/src/main/java/io/github/thumbtack/androidSimpleTooltip/OverlayView.kt:95-103 | the cut-out is the anchor rectangle moved into overlay coordinates and grown by the offset on each side: its size is the anchor size plus twice the offset |
| OverlayMask.CutOutCentredOnAnchor | library/src/main/java/io/github/thumbtack/androidSimpleTooltip/OverlayView.kt:91-103 | the cut-out is centred on the anchor, and it contains the anchor exactly when the offset is non-negative |
| OverlayMask.NewOverlay | library/src/main/java/io/github/thumbtack/androidSimpleTooltip/OverlayView.kt:39-48 | a new overlay keeps whether it highlights an anchor, its shape and offset, has no bitmap, and starts invalidated |
| OverlayMask.FrameFor | library/src/main/java/io/github/thumbtack/androidSimpleTooltip/OverlayView.kt:80-110 | the mask is the full measured size; it has a cut-out exactly when there is an anchor, around the anchor's rectangle as laid out at drawing time, with the configured shape |
| OverlayMask.CreateWindowFrame | library/src/main/java/io/github/thumbtack/androidSimpleTooltip/OverlayView.kt:65-113 | a view with no area changes nothing; otherwise the previous bitmap is released, a fresh bitmap of exactly the measured size holds the mask for the current overlay and anchor geometry, `invalidated` is cleared and no bitmap leaks |
| OverlayMask.DispatchDraw | library/src/main/java/io/github/thumbtack/androidSimpleTooltip/OverlayView.kt:57-63 | draw regenerates the mask exactly when invalidated, absent or recycled, and draws a bitmap exactly when one is present and not recycled |
| OverlayMask.OnLayout | library/src/main/java/io/github/thumbtack/androidSimpleTooltip/OverlayView.kt:119-122 | a layout marks the mask stale without touching the bitmap |
| OverlayMask.HostRecycle | library/src/main/java/io/github/thumbtack/androidSimpleTooltip/OverlayView.kt:58-62 | a bitmap reclaimed by the host is seen as recycled and is no longer held |
| OverlayMask.LayoutThenDrawIsFresh | library/src/main/java/io/github/thumbtack/androidSimpleTooltip/OverlayView.kt:57-122 | a layout followed by a draw at positive size shows the mask for where the overlay and the anchor are now, and holds only the new bitmap |
| OverlayMask.EmptyBoxKeepsMask | library/src/main/java/io/github/thumbtack/androidSimpleTooltip/OverlayView.kt:66-69 | a draw with no area keeps the bitmap and the `invalidated` flag |
| OverlayMask.MovedAnchorWaitsForLayout | library/src/main/java/io/github/thumbtack/androidSimpleTooltip/OverlayView.kt:57-122 | an anchor that moves between two draws with no layout of the overlay in between keeps its old cut-out on screen; the next layout and draw cut around its new position |
| OverlayMask.SetAnchorView | library/src/main/java/io/github/thumbtack/androidSimpleTooltip/OverlayView.kt:50-55 | as written, a new anchor is stored but the mask is not marked stale |
| OverlayMask.SetAnchorViewCorrected | library/src/main/java/io/github/thumbtack/androidSimpleTooltip/OverlayView.kt:50-55 | corrected, a new anchor also marks the mask stale |
| OverlayMask.StaleCutOutAfterAnchorChange | library/src/main/java/io/github/thumbtack/androidSimpleTooltip/OverlayView.kt:50-63 | as written, after a draw, moving the highlight to another anchor keeps drawing the old cut-out |
| OverlayMask.FreshCutOutAfterAnchorChangeCorrected | library/src/main/java/io/github/thumbtack/androidSimpleTooltip/OverlayView.kt:50-63 | corrected, the next draw after an anchor change shows the new anchor's cut-out |
| Placement.PopupLocation | library/src/main/java/io/github/thumbtack/androidSimpleTooltip/SimpleTooltip.kt:322-357 | unsupported gravities raise; START/END put the popup margin-away left/right of the anchor and centre it vertically, TOP/BOTTOM put it above/below and centre it horizontally, CENTER centres it on both axes |
| Placement.PopupPosition | library/src/main/java/io/github/thumbtack/androidSimpleTooltip/SimpleTooltip.kt:121-127 | the whole-pixel popup position is each coordinate truncated toward zero: no farther from the origin and less than a pixel from the exact location |
| Placement.ArrowPointsTowardAnchor | library/src/main/java/io/github/thumbtack/androidSimpleTooltip/SimpleTooltip.kt:329-345 | for START, END, TOP, BOTTOM the popup lies wholly on its side of the anchor and the resolved arrow direction points from the popup toward the anchor, in both directions of each iff |
| Placement.AnimationAxis | library/src/main/java/io/github/thumbtack/androidSimpleTooltip/SimpleTooltip.kt:463-465 | the pendulum animates `translationY` exactly for TOP and BOTTOM gravity |
| Placement.MarginMovesAlongAnimationAxis | library/src/main/java/io/github/thumbtack/androidSimpleTooltip/SimpleTooltip.kt:463-465 | the animation axis is the axis along which the margin moves the popup; CENTER ignores the margin |
| Placement.AnchorPointX | library/src/main/java/io/github/thumbtack/androidSimpleTooltip/SimpleTooltip.kt:149-151 | the original variant aims at the anchor centre |
| Placement.BiasEndpoints | library/src/main/java/io/github/thumbtack/androidSimpleTooltip/SimpleTooltip.kt:149-151 | bias 1/2 aims at the centre, 0 at the left and 1 at the right edge, and a bias in [0,1] stays between the edges |
| Placement.ClampArrow | library/src/main/java/io/github/thumbtack/androidSimpleTooltip/SimpleTooltip.kt:152-158 | the arrow keeps the centring offset when it fits between the paddings, falls back to the leading padding when the offset is not beyond it, and otherwise ends at the trailing padding |
| Placement.ClampStaysInsidePadding | library/src/main/java/io/github/thumbtack/androidSimpleTooltip/SimpleTooltip.kt:152-158 | when the arrow fits, the clamp is the projection onto the allowed interval so the arrow never crosses either padding; otherwise it sits at one bound |
| Placement.TargetX | library/src/main/java/io/github/thumbtack/androidSimpleTooltip/SimpleTooltip.kt:146-152 | the unclamped x offset puts the middle of the arrow on the anchor point (biased in the thumbtack variant), in screen coordinates |
| Placement.TargetY | library/src/main/java/io/github/thumbtack/androidSimpleTooltip/SimpleTooltip.kt:163-165 | the unclamped y offset puts the middle of the arrow on the anchor centre, in screen coordinates |
| Placement.ClampedOffset | library/src/main/java/io/github/thumbtack/androidSimpleTooltip/SimpleTooltip.kt:147-176 | the truncated clamp keeps the leading clearance up to truncation and never passes the trailing one, and is within a pixel of an offset that already fits |
| Placement.Nudged | library/src/main/java/io/github/thumbtack/androidSimpleTooltip/SimpleTooltip.kt:159-176 | the nudged coordinate is exactly one pixel over the seam, unless that leaves the `Int` range |
| Placement.SeamNudge | library/src/main/java/io/github/thumbtack/androidSimpleTooltip/SimpleTooltip.kt:159-160 | the one-pixel nudge is backward exactly for BOTTOM and RIGHT arrows |
| Placement.AlignArrow | library/src/main/java/io/github/thumbtack/androidSimpleTooltip/SimpleTooltip.kt:141-176 | along the clamped axis (x for TOP/BOTTOM arrows, y otherwise) the arrow keeps the padding plus 2dp clear of both content edges, up to truncation, and when the centring offset fits it lands within a pixel of it, so its middle is within a pixel of the anchor point; along the other axis it moves exactly one pixel toward the body |
| Placement.VariantsAgreeAtHalfBias | library/src/main/java/io/github/douglasjunior/androidSimpleTooltip/SimpleTooltip.kt:134-146 | the original variant places the arrow exactly where the thumbtack variant does at bias 1/2 |
| Placement.BiasIsObservable | library/src/main/java/io/github/thumbtack/androidSimpleTooltip/SimpleTooltip.kt:149-151 | on an anchor of positive width any other bias gives a different unclamped offset than the original |
| Placement.OffCentreBias | library/src/main/java/io/github/thumbtack/androidSimpleTooltip/SimpleTooltip.kt:149-151 | a bias other than 1/2 aims off the anchor centre |
| Construction.Init | library/src/main/java/io/github/thumbtack/androidSimpleTooltip/SimpleTooltip.kt:222-239 | with an arrow, AUTO resolves to the gravity table's direction (failing exactly for unsupported gravities), an explicit direction is kept, zero sizes take their defaults and a drawable is made exactly when none was supplied; without an arrow nothing changes |
| Construction.AutoArrowIsDrawn | library/src/main/java/io/github/thumbtack/androidSimpleTooltip/SimpleTooltip.kt:223-227 | a tooltip built with an AUTO arrow gets a default drawable that draws a real triangle |
| Construction.LayoutPadding | library/src/main/java/io/github/thumbtack/androidSimpleTooltip/SimpleTooltip.kt:373 | the layout padding is the truncated animation padding when animated, else the truncated window padding (thumbtack) or zero (original) |
| Construction.BuildLayout | library/src/main/java/io/github/thumbtack/androidSimpleTooltip/SimpleTooltip.kt:359-409 | horizontal exactly for LEFT/RIGHT; with an arrow the children are the content and the arrow, arrow last exactly for BOTTOM/RIGHT, and the arrow box swaps its sides for horizontal arrows; without one only the content |
| Construction.PaddingVariantsAgree | library/src/main/java/io/github/douglasjunior/androidSimpleTooltip/SimpleTooltip.kt:352 | the variants pad alike exactly when animated or when the window padding truncates to zero |
| Construction.ArrowBoxFitsShape | library/src/main/java/io/github/thumbtack/androidSimpleTooltip/SimpleTooltip.kt:383-391 | for every direction the arrow box gives the triangle `arrowHeight` of reach and `arrowWidth` of span |
| Construction.ArrowFacesAnchor | library/src/main/java/io/github/thumbtack/androidSimpleTooltip/SimpleTooltip.kt:400-406 | an arrow resolved from START/END/TOP/BOTTOM is laid out on the side of the body facing the anchor |
| Construction.NudgeTowardContent | library/src/main/java/io/github/thumbtack/androidSimpleTooltip/SimpleTooltip.kt:159-160 | the seam nudge always moves the arrow toward the body |
| Touch.Intercept | library/src/main/java/io/github/thumbtack/androidSimpleTooltip/SimpleTooltip.kt:249-265 | the full decision table: dismissing implies consuming; consumed without dismissing exactly for an outside press or ACTION_OUTSIDE with outside dismissal off; dismissed exactly for a press with inside dismissal on that is inside or outside-dismissable |
| Touch.DefaultFlagsDismissOnPress | library/src/main/java/io/github/thumbtack/androidSimpleTooltip/SimpleTooltip.kt:253-264 | with both flags on, every press dismisses and nothing else is consumed |
| Touch.SubPixelMarginCountsAsInside | library/src/main/java/io/github/thumbtack/androidSimpleTooltip/SimpleTooltip.kt:250-255 | because of truncation, a press less than a pixel left of the content counts as inside |
| Touch.OverlayConsumes | library/src/main/java/io/github/thumbtack/androidSimpleTooltip/SimpleTooltip.kt:104 | the overlay's touch listener consumes a touch exactly when the tooltip is modal, whatever the action |
| Lifecycle.Init | library/src/main/java/io/github/thumbtack/androidSimpleTooltip/SimpleTooltip.kt:73 | a new tooltip is live, its popup exists but is not showing, the root view is set, and nothing is registered or attached |
| Lifecycle.Unregister | library/src/main/java/io/github/thumbtack/androidSimpleTooltip/SimpleTooltip.kt:450-458 | removing every phase once takes one registration of each phase away (none below zero), leaving nothing when each was registered at most once |
| Lifecycle.OnDismiss | library/src/main/java/io/github/thumbtack/androidSimpleTooltip/SimpleTooltip.kt:432-461 | the dismiss callback leaves the tooltip dismissed and not showing, stops the animation, detaches the current overlay, calls the dismiss listener once if set and clears it, removes one registration of each phase while the popup exists, and keeps the configuration |
| Lifecycle.Dismiss | library/src/main/java/io/github/thumbtack/androidSimpleTooltip/SimpleTooltip.kt:419-425 | dismissal is idempotent; a showing window runs the dismiss callback; as written a window not yet showing is only flagged |
| Lifecycle.Show | library/src/main/java/io/github/thumbtack/androidSimpleTooltip/SimpleTooltip.kt:271-285 | show throws IllegalArgumentException exactly for a dismissed tooltip and then changes nothing; otherwise it adds the location and auto-dismiss registrations, posts the display when there is a root view, counts the show, and changes nothing else |
| Lifecycle.RunPost | library/src/main/java/io/github/douglasjunior/androidSimpleTooltip/SimpleTooltip.kt:262-268 | a posted display shows the window exactly when one is pending, the root is shown and the popup still exists (the original variant also needs the root reference); nothing else changes |
| Lifecycle.CreateOverlay | library/src/main/java/io/github/thumbtack/androidSimpleTooltip/SimpleTooltip.kt:293-320 | unless ignored, an overlay becomes current and is attached to the root; as written earlier overlays stay attached |
| Lifecycle.OverlayFor | library/src/main/java/io/github/thumbtack/androidSimpleTooltip/SimpleTooltip.kt:293-306 | no overlay exactly when ignored, a plain view exactly when transparent, otherwise a fresh mask that highlights the anchor unless the thumbtack highlight switch is off |
| Lifecycle.Locate | library/src/main/java/io/github/thumbtack/androidSimpleTooltip/SimpleTooltip.kt:121-127 | the location work hands over to the arrow phase and throws the unsupported-gravity IllegalArgumentException exactly for a gravity outside the table, in which case no overlay is attached; otherwise the overlay becomes current unless ignored |
| Lifecycle.LocationPhase | library/src/main/java/io/github/thumbtack/androidSimpleTooltip/SimpleTooltip.kt:106-129 | a dismissed or popup-less tooltip is untouched; while the content is wider than a positive `maxWidth` only the truncated width is forced; otherwise it locates, throwing exactly for an unsupported gravity |
| Lifecycle.ArrowPhase | library/src/main/java/io/github/thumbtack/androidSimpleTooltip/SimpleTooltip.kt:131-180 | on a live tooltip the arrow registration is replaced by one animation and one reveal registration and the arrow is placed, nothing else changes; otherwise nothing happens |
| Lifecycle.RevealPhase | library/src/main/java/io/github/thumbtack/androidSimpleTooltip/SimpleTooltip.kt:182-195 | on a live tooltip the reveal registration is removed, the content becomes visible and the show listener is called once if set and then cleared; otherwise nothing happens |
| Lifecycle.AnimationPhase | library/src/main/java/io/github/thumbtack/androidSimpleTooltip/SimpleTooltip.kt:197-209 | on a live tooltip the animation registration is removed and the pendulum starts exactly when animation is on; otherwise nothing happens |
| Lifecycle.AutoDismissPhase | library/src/main/java/io/github/thumbtack/androidSimpleTooltip/SimpleTooltip.kt:215-220 | the tooltip is dismissed exactly when it is live, has a root view and the root is no longer shown; the auto-dismiss registration then goes with the rest, and is otherwise kept |
| Lifecycle.EndSwing | library/src/main/java/io/github/thumbtack/androidSimpleTooltip/SimpleTooltip.kt:482-486 | the pendulum restarts after a swing exactly while the tooltip is not dismissed and its window is showing |
| Lifecycle.Fire | library/src/main/java/io/github/thumbtack/androidSimpleTooltip/SimpleTooltip.kt:106-220 | only the location listener can throw, and only for an unsupported gravity; a dismissed tooltip is untouched; a listener call never consumes anything |
| Lifecycle.Touched | library/src/main/java/io/github/thumbtack/androidSimpleTooltip/SimpleTooltip.kt:249-265 | a touch never throws; on a window that is not showing it does nothing; on a showing one it consumes and dismisses exactly as the interceptor decides |
| Lifecycle.OverlayBlocks | library/src/main/java/io/github/thumbtack/androidSimpleTooltip/SimpleTooltip.kt:104 | a touch on the root view is swallowed exactly when some overlay is attached (referenced or leaked) and the tooltip is modal |
| Lifecycle.Step | library/src/main/java/io/github/thumbtack/androidSimpleTooltip/SimpleTooltip.kt:106-291 | only `show()` on a dismissed tooltip and the location listener under an unsupported gravity throw, the configuration never changes, dismissal is never undone, and only touches on the popup or on an overlay are consumed |
| Lifecycle.InitEstablishesInv | library/src/main/java/io/github/thumbtack/androidSimpleTooltip/SimpleTooltip.kt:73 | a new tooltip satisfies the lifecycle invariant |
| Lifecycle.StepPreservesInv | library/src/main/java/io/github/thumbtack/androidSimpleTooltip/SimpleTooltip.kt:106-220 | every event keeps the invariant: references drop together, phases run in order, each user listener fires at most once, overlays never outnumber accepted shows |
| Lifecycle.Run | library/src/main/java/io/github/thumbtack/androidSimpleTooltip/SimpleTooltip.kt:271-461 | over any event sequence the invariant holds, each user listener fires at most once, the configuration is kept, throwing implies dismissal or an unsupported gravity, and dismissal is permanent; corrected, a dismissed tooltip is hidden with no overlay |
| Lifecycle.ShowThrowsIffDismissed | library/src/main/java/io/github/thumbtack/androidSimpleTooltip/SimpleTooltip.kt:287-291 | show throws exactly for a dismissed tooltip, with the dismissed message and no other effect |
| Lifecycle.PhasesInertAfterDismiss | library/src/main/java/io/github/thumbtack/androidSimpleTooltip/SimpleTooltip.kt:110 | once dismissed, no phase callback changes anything |
| Lifecycle.LocationPhaseChaining | library/src/main/java/io/github/thumbtack/androidSimpleTooltip/SimpleTooltip.kt:112-122 | the location phase stays registered exactly while the content is wider than a positive maxWidth (forcing the truncated width); otherwise it is replaced by the arrow phase |
| Lifecycle.MaxWidthEnforcementSettles | library/src/main/java/io/github/thumbtack/androidSimpleTooltip/SimpleTooltip.kt:112-119 | after the width is forced, a layout at the forced width hands over to the arrow phase |
| Lifecycle.LaterPhasesChain | library/src/main/java/io/github/thumbtack/androidSimpleTooltip/SimpleTooltip.kt:137-193 | the arrow phase is replaced by the animation and reveal phases; the reveal phase shows the content and calls the show listener at most once |
| Lifecycle.PostVariantsAgree | library/src/main/java/io/github/douglasjunior/androidSimpleTooltip/SimpleTooltip.kt:262-268 | under the invariant, the two variants' root checks before display decide alike |
| Lifecycle.TouchDismissHides | library/src/main/java/io/github/thumbtack/androidSimpleTooltip/SimpleTooltip.kt:253-264 | the interceptor acts only on a showing window, and a dismissing touch on a live tooltip hides it |
| Lifecycle.DismissBeforeDisplayLeavesPopupShowing | library/src/main/java/io/github/thumbtack/androidSimpleTooltip/SimpleTooltip.kt:419-425 | as written, dismiss before the posted display leaves a dismissed tooltip showing, its listener never called, and further dismisses ineffective |
| Lifecycle.DismissBeforeDisplayCorrected | library/src/main/java/io/github/thumbtack/androidSimpleTooltip/SimpleTooltip.kt:419-425 | corrected, the same sequence leaves the tooltip hidden and the listener called once |
| Lifecycle.DoubleShowLeavesOverlay | library/src/main/java/io/github/thumbtack/androidSimpleTooltip/SimpleTooltip.kt:293-320 | as written, with a supported gravity and the overlay on, two shows attach two overlays and closing removes only one |
| Lifecycle.LocationAttaches | library/src/main/java/io/github/thumbtack/androidSimpleTooltip/SimpleTooltip.kt:121-127 | as written, each run of the location listener on a live tooltip with a root view attaches one more overlay and uses up one location registration |
| Lifecycle.HostCloseDetachesOne | library/src/main/java/io/github/thumbtack/androidSimpleTooltip/SimpleTooltip.kt:432-447 | the window closing on its own detaches exactly the current overlay and leaves the tooltip dismissed and hidden |
| Lifecycle.LeakedOverlayBlocksTouches | library/src/main/java/io/github/thumbtack/androidSimpleTooltip/SimpleTooltip.kt:104-316 | as written, an overlay still attached after dismissal keeps a modal tooltip swallowing every touch on the root view |
| Lifecycle.DismissedOverlayLetsTouchesThrough | library/src/main/java/io/github/thumbtack/androidSimpleTooltip/SimpleTooltip.kt:432-444 | corrected, a dismissed tooltip has no overlay left, so no overlay touch is consumed |
| Lifecycle.CorrectedDismissCleansUp | library/src/main/java/io/github/thumbtack/androidSimpleTooltip/SimpleTooltip.kt:432-461 | corrected, dismissal always leaves the tooltip hidden with no overlay attached and the dismiss listener called once if it was set; one registration of each phase is removed, none is left after a single show, and no listener left over by a repeated show can change anything |
| Lifecycle.OnlyPostShows | library/src/main/java/io/github/thumbtack/androidSimpleTooltip/SimpleTooltip.kt:82-83 | `isShowing` turns from false to true only when a posted display runs with a display pending and the root view shown; no other event, `show()` and every layout listener included, puts the window on screen |
| Lifecycle.FireNeverShows | library/src/main/java/io/github/thumbtack/androidSimpleTooltip/SimpleTooltip.kt:106-220 | no layout listener call turns `isShowing` on |
| Lifecycle.DismissNeverShows | library/src/main/java/io/github/thumbtack/androidSimpleTooltip/SimpleTooltip.kt:419-425 | dismissing never turns `isShowing` on |
| Lifecycle.ShowingBeforeReveal | library/src/main/java/io/github/thumbtack/androidSimpleTooltip/SimpleTooltip.kt:82-83 | a new tooltip is not showing; after `show()` and the posted display `isShowing` is already true while the content is still invisible, before the reveal listener runs |

## Left out

- The sample `MainActivity` files: demo code that only calls the constructor.
- PopupWindow display, `update` and clipping, ViewTreeObserver registration, view inflation, `findViewById` and logging: host calls; layout passes and the posted display are events of `Lifecycle.Step`.
- What the host does with an unconsumed touch (closing the window on an outside press) is not derived: it appears as a separate `HostClose` event.
- Canvas, Paint, PorterDuff compositing, anti-aliasing, the overlay alpha resource and the background colour: a mask frame records only its size, cut-out rectangle and shape.
- Animation playback (animators, interpolators, durations, animation padding values): only the axis and the restart rule are modelled.
- Resource and compatibility lookups (`getDimension`, `getColor`, `getDrawable`, `setTextAppearance`, `Build.VERSION` branches, elevation, text) and the density source: they are parameters or omitted.
- `@Synchronized` on `updatePath`: no concurrency is modelled.
- IEEE `Float` rounding: reals are exact; only explicit `toInt()` truncation is modelled. Kotlin compares `Int` with `Float` by widening to `Float`, which the model treats as exact.
- The `useActivityRootView` decor-view lookup and the overlay layout parameters (`overlayMatchParent`): the root view is only present or absent.
- The douglasjunior `configPopupWindow` assigns the popup width and height to themselves inside `run` instead of from the tooltip's fields; the popup size is not part of this model.
- Lifecycle.Init: the root view is always set at construction, because `findFrameLayout` never returns null.
- Lifecycle.Step: a repeated registration of the same phase is counted in a multiset, but the order in which the host calls listeners within one pass is not modelled; each `Layout` event is one call.
- Lifecycle.OverlayBlocks: where an unconsumed overlay touch goes next (the views under the overlay) is the host's business and is not modelled.
- Lifecycle.Step: the IllegalArgumentException raised inside the location listener is reported as the reaction's thrown error; what the host does with an exception escaping a layout callback (crashing the app) is not modelled, and the following events are still applied.
- Lifecycle.DoubleShowLeavesOverlay: stated for a supported gravity with the overlay on; otherwise the location listener throws or attaches nothing.
- Placement.AlignArrow: the far-edge and centring bounds are stated for paddings and offsets that are non-negative and within the `Int` range; outside that the clamp's result is given only by `ClampArrow`.
- KotlinNum.Wrap32: widths of anchor and content rectangles are assumed not to overflow in the contracts that relate them to measured sizes.

## Findings

| source | as written | input that shows it | evidently intended | confidence | as-written member | corrected member |
|---|---|---|---|---|---|---|
| library/src/main/java/io/github/thumbtack/androidSimpleTooltip/SimpleTooltip.kt:419-425 | `dismiss()` sets the flag and asks the window to dismiss itself, which the host ignores for a window not yet showing, so `onDismiss` never runs | `show()`, then `dismiss()`, then the posted display runs with the root shown | dismissing before display cleans up (runs `onDismiss`) so the popup never appears and the listener is called | medium, not executed | Lifecycle.DismissBeforeDisplayLeavesPopupShowing | Lifecycle.DismissBeforeDisplayCorrected |
| library/src/main/java/io/github/thumbtack/androidSimpleTooltip/SimpleTooltip.kt:293-320 | `createOverlay` overwrites the `overlay` reference without detaching the previous overlay | `show()` twice, display, two location passes, then the window closes | at most one overlay attached, and none after dismissal | medium, not executed | Lifecycle.DoubleShowLeavesOverlay | Lifecycle.CorrectedDismissCleansUp |
| library/src/main/java/io/github/thumbtack/androidSimpleTooltip/OverlayView.kt:50-55 | the `anchorView` setter requests a redraw but does not set `invalidated`, so the cached mask keeps the old cut-out | draw with an anchor at window x 0, set an anchor at window x 10, draw again | the setter marks the mask stale | high, not executed | OverlayMask.StaleCutOutAfterAnchorChange | OverlayMask.FreshCutOutAfterAnchorChangeCorrected |

The corrected lifecycle is selected by `Lifecycle.Revision.Corrected`: `Dismiss`
then runs `OnDismiss` for a window that is not showing yet, and `CreateOverlay`
detaches the previous overlay. `Lifecycle.Run` proves, for the corrected
revision, that a dismissed tooltip is never showing and has no overlay
attached.

=== FILE: arrow_shape.dfy ===
/** The arrow drawable (`ArrowDrawable`, identical in logic in both library
    variants): the triangle outline per direction, its lazily rebuilt cached
    path, and the opacity classification of the arrow colour. */
module ArrowShape {
  import opened KotlinNum
  import opened TooltipTypes
  import opened Geometry

  /** A path as built by `moveTo` followed by `lineTo`s: the visited points,
      and whether `close()` was called. */
  datatype Path = Path(points: seq<PointF>, closed: bool)

  function P(x: int, y: int): PointF {
    PointF(x as real, y as real)
  }

  /** `updatePath`: the outline for a drawable whose bounds are `width` by
      `height`. Halving is `Int` division. A direction outside the four
      concrete ones draws nothing, but the path is still closed. */
  function UpdatePath(direction: int, width: int, height: int): (p: Path)
    ensures p.closed
    ensures IsConcrete(direction) ==> |p.points| == 4 && p.points[3] == p.points[0]
    ensures !IsConcrete(direction) ==> p.points == []
  {
    var w := width;
    var h := height;
    var pts :=
      if direction == LEFT then [P(w, h), P(0, Half(h)), P(w, 0), P(w, h)]
      else if direction == TOP then [P(0, h), P(Half(w), 0), P(w, h), P(0, h)]
      else if direction == RIGHT then [P(0, 0), P(w, Half(h)), P(0, h), P(0, 0)]
      else if direction == BOTTOM then [P(0, 0), P(Half(w), h), P(w, 0), P(0, 0)]
      else [];
    Path(pts, true)
  }

  /** How far a point lies in the direction the arrow points. */
  function Along(direction: int, p: PointF): real
    requires IsConcrete(direction)
  {
    if direction == LEFT then -p.x
    else if direction == RIGHT then p.x
    else if direction == TOP then -p.y
    else p.y
  }

  /** The coordinate of a point across the pointing direction. */
  function Across(direction: int, p: PointF): real
    requires IsConcrete(direction)
  {
    if IsVertical(direction) then p.x else p.y
  }

  /** The extent of the bounds along, and across, the pointing direction. */
  function Reach(direction: int, width: int, height: int): int {
    if IsVertical(direction) then height else width
  }

  function Span(direction: int, width: int, height: int): int {
    if IsVertical(direction) then width else height
  }

  predicate InBounds(p: PointF, width: int, height: int) {
    0.0 <= p.x <= width as real && 0.0 <= p.y <= height as real
  }

  /** The shape is a triangle that points where its direction says: the tip
      (second vertex) lies one full reach of the bounds beyond the base, the
      base (first and third vertices) is perpendicular to the pointing
      direction and spans the bounds, starting at the far edge for LEFT and
      at the origin otherwise, the tip sits at the halved span, and
      every vertex stays inside the bounds. */
  lemma {:induction false} ArrowPointsInItsDirection(direction: int, width: int, height: int)
    requires IsConcrete(direction)
    requires width >= 0 && height >= 0
    ensures var pts := UpdatePath(direction, width, height).points;
      && Along(direction, pts[1]) - Along(direction, pts[0]) == Reach(direction, width, height) as real
      && Along(direction, pts[2]) == Along(direction, pts[0])
      && Abs(Across(direction, pts[2]) - Across(direction, pts[0])) == Span(direction, width, height) as real
      && Across(direction, pts[0]) == (if direction == LEFT then Span(direction, width, height) as real else 0.0)
      && Across(direction, pts[1]) == Half(Span(direction, width, height)) as real
      && forall i :: 0 <= i < 4 ==> InBounds(pts[i], width, height)
  {
    var pts := UpdatePath(direction, width, height).points;
    var hw := Half(width);
    var hh := Half(height);
    assert 0 <= hw <= width && 0 <= hh <= height;
  }

  /** Drawable bounds (`android.graphics.Rect`); widths are `Int`
      differences. */
  datatype Bounds = Bounds(left: Int32, top: Int32, right: Int32, bottom: Int32) {
    function Width(): Int32 { Wrap32(right - left) }
    function Height(): Int32 { Wrap32(bottom - top) }
  }

  /** The state of one arrow drawable: its fixed direction, the paint colour
      and colour filter, the current bounds, and the cached path. */
  datatype Drawable = Drawable(
    direction: int,
    color: Int32,
    hasColorFilter: bool,
    bounds: Bounds,
    path: Option<Path>)

  /** The constructor: no path yet, empty bounds. */
  function NewDrawable(color: Int32, direction: int): (d: Drawable)
    ensures d.path.None? && d.color == color && d.direction == direction && !d.hasColorFilter
  {
    Drawable(direction, color, false, Bounds(0, 0, 0, 0), None)
  }

  function PathFor(d: Drawable): Path {
    UpdatePath(d.direction, d.bounds.Width(), d.bounds.Height())
  }

  /** The cached path, when there is one, is the outline of the current
      bounds. */
  predicate PathCurrent(d: Drawable) {
    d.path.Some? ==> d.path.value == PathFor(d)
  }

  /** `onBoundsChange`: always rebuilds the path for the new bounds. */
  function OnBoundsChange(d: Drawable, b: Bounds): (r: Drawable)
    ensures r.bounds == b && r.path.Some? && PathCurrent(r)
    ensures r.direction == d.direction && r.color == d.color && r.hasColorFilter == d.hasColorFilter
  {
    var d1 := d.(bounds := b);
    d1.(path := Some(PathFor(d1)))
  }

  /** The host's `setBounds`, which calls `onBoundsChange` only when the
      bounds differ from the current ones. */
  function SetBounds(d: Drawable, b: Bounds): (r: Drawable)
    ensures r.bounds == b
    ensures PathCurrent(d) ==> PathCurrent(r)
    ensures r.direction == d.direction && r.color == d.color && r.hasColorFilter == d.hasColorFilter
  {
    if b == d.bounds then d else OnBoundsChange(d, b)
  }

  /** `draw`: builds the path lazily when it is absent, then draws it. */
  function Draw(d: Drawable): (r: (Drawable, Path))
    ensures r.0.path == Some(r.1)
    ensures d.path.Some? ==> r.0 == d
    ensures d.path.None? ==> r.1 == PathFor(d) && r.0 == d.(path := Some(r.1))
    ensures PathCurrent(d) ==> PathCurrent(r.0)
  {
    match d.path
    case Some(p) => (d, p)
    case None =>
      var p := PathFor(d);
      (d.(path := Some(p)), p)
  }

  /** Whatever sequence of bounds changes came before, drawing always shows
      the outline of the drawable's current bounds. */
  lemma {:induction false} DrawShowsCurrentBounds(d: Drawable, changes: seq<Bounds>)
    requires PathCurrent(d)
    ensures var e := ApplyBounds(d, changes);
      PathCurrent(e) && Draw(e).1 == PathFor(e)
    decreases |changes|
  {
    if |changes| > 0 {
      DrawShowsCurrentBounds(SetBounds(d, changes[0]), changes[1..]);
    }
  }

  function ApplyBounds(d: Drawable, changes: seq<Bounds>): Drawable
    decreases |changes|
  {
    if |changes| == 0 then d else ApplyBounds(SetBounds(d, changes[0]), changes[1..])
  }

  /** `PixelFormat` opacity classes. */
  datatype Opacity = Opaque | Transparent | Translucent

  function AlphaOf(color: Int32): int {
    TopByte(color)
  }

  /** `getOpacity`: a colour filter makes the arrow translucent; otherwise
      the alpha byte of the paint colour decides. */
  function GetOpacity(d: Drawable): (o: Opacity)
    ensures o == Opaque <==> !d.hasColorFilter && AlphaOf(d.color) == 255
    ensures o == Transparent <==> !d.hasColorFilter && AlphaOf(d.color) == 0
    ensures o == Translucent <==> d.hasColorFilter || 0 < AlphaOf(d.color) < 255
  {
    if d.hasColorFilter then Translucent
    else if AlphaOf(d.color) == 255 then Opaque
    else if AlphaOf(d.color) == 0 then Transparent
    else Translucent
  }

  /** `setColor`: the whole paint colour is replaced; the colour filter
      and the path are kept, so without a filter the new colour's alpha byte
      alone decides the opacity. */
  function SetColor(d: Drawable, color: Int32): (r: Drawable)
    ensures r.color == color
    ensures r.hasColorFilter == d.hasColorFilter && r.path == d.path
    ensures r.direction == d.direction && r.bounds == d.bounds
    ensures !d.hasColorFilter ==>
              && (GetOpacity(r) == Opaque <==> AlphaOf(color) == 255)
              && (GetOpacity(r) == Transparent <==> AlphaOf(color) == 0)
    ensures d.hasColorFilter ==> GetOpacity(r) == Translucent
  {
    d.(color := color)
  }

  /** `setColorFilter`, with `present` false for `null`: a filter makes the
      arrow translucent whatever its colour; clearing it hands the opacity
      back to the colour's alpha byte. The colour and the path are kept. */
  function SetColorFilter(d: Drawable, present: bool): (r: Drawable)
    ensures r.hasColorFilter == present && r.color == d.color
    ensures r.path == d.path && r.direction == d.direction && r.bounds == d.bounds
    ensures GetOpacity(r) == Translucent || !present
    ensures !present ==>
              && (GetOpacity(r) == Opaque <==> AlphaOf(d.color) == 255)
              && (GetOpacity(r) == Transparent <==> AlphaOf(d.color) == 0)
  {
    d.(hasColorFilter := present)
  }

  /** Setting a filter and clearing it again restores the opacity the
      drawable had without one, and changes nothing else. */
  lemma ClearedFilterRestoresOpacity(d: Drawable)
    requires !d.hasColorFilter
    ensures SetColorFilter(SetColorFilter(d, true), false) == d
    ensures GetOpacity(SetColorFilter(SetColorFilter(d, true), false)) == GetOpacity(d)
  {
  }

  /** `setAlpha`, through the host paint: replaces the top byte of the
      colour and keeps its red, green and blue bytes. The host leaves values
      outside 0..255 undefined. */
  function SetAlpha(d: Drawable, alpha: int): (r: Drawable)
    requires 0 <= alpha <= 255
    ensures AlphaOf(r.color) == alpha
    ensures Unsigned(r.color) % 0x100_0000 == Unsigned(d.color) % 0x100_0000
    ensures r.path == d.path && r.hasColorFilter == d.hasColorFilter
    ensures r.direction == d.direction && r.bounds == d.bounds
  {
    var rgb := Unsigned(d.color) % 0x100_0000;
    d.(color := Signed(alpha * 0x100_0000 + rgb))
  }

  /** Setting the alpha to 255 or 0 without a colour filter makes the arrow
      opaque or transparent; any value in between makes it translucent. */
  lemma AlphaDecidesOpacity(d: Drawable, alpha: int)
    requires 0 <= alpha <= 255
    requires !d.hasColorFilter
    ensures alpha == 255 <==> GetOpacity(SetAlpha(d, alpha)) == Opaque
    ensures alpha == 0 <==> GetOpacity(SetAlpha(d, alpha)) == Transparent
  {
  }
}

=== FILE: construction.dfy ===
/** Decisions taken while a tooltip is constructed (`init` and
    `configContentView`): arrow direction resolution, default arrow size,
    the arrow drawable, and the shape of the linear layout that holds the
    content and the arrow. */
module Construction {
  import opened KotlinNum
  import opened TooltipTypes
  import opened Geometry
  import ArrowShape
  import Placement

  /** The constructor parameters this part of the library reads. */
  datatype Settings = Settings(
    showArrow: bool,
    arrowDirection: int,
    gravity: Gravity,
    hasCustomArrowDrawable: bool,
    arrowColor: Int32,
    arrowWidth: real,
    arrowHeight: real,
    animated: bool,
    animationPadding: real,
    windowPadding: real,
    padding: real)

  /** The resource dimensions used when no arrow size is given. */
  datatype Defaults = Defaults(arrowWidth: real, arrowHeight: real)

  /** Settings after `init`, and the arrow drawable it created, if any. */
  datatype Resolved = Resolved(settings: Settings, drawable: Option<ArrowShape.Drawable>)

  /** The `init` block. With an arrow, AUTO is resolved through the gravity
      table (which raises for an unsupported gravity), a default drawable is
      made unless one was supplied, and zero arrow dimensions take their
      defaults. Without an arrow nothing changes. */
  function Init(s: Settings, d: Defaults): (r: Result<Resolved>)
    ensures r.Err? <==> s.showArrow && s.arrowDirection == AUTO && s.gravity.Other?
    ensures r.Err? ==> r.error == IllegalArgument(GRAVITY_MESSAGE)
    ensures r.Ok? && !s.showArrow ==> r.value == Resolved(s, None)
    ensures r.Ok? && s.showArrow ==>
              var t := r.value.settings;
              && t.arrowDirection != AUTO
              && (s.arrowDirection == AUTO ==> IsConcrete(t.arrowDirection))
              && (s.arrowDirection == AUTO ==> Ok(t.arrowDirection) == GravityToArrowDirection(s.gravity))
              && (s.arrowDirection != AUTO ==> t.arrowDirection == s.arrowDirection)
              && (t.arrowWidth == if s.arrowWidth == 0.0 then d.arrowWidth else s.arrowWidth)
              && (t.arrowHeight == if s.arrowHeight == 0.0 then d.arrowHeight else s.arrowHeight)
              && (r.value.drawable.Some? <==> !s.hasCustomArrowDrawable)
              && (r.value.drawable.Some? ==>
                    r.value.drawable.value == ArrowShape.NewDrawable(s.arrowColor, t.arrowDirection))
    ensures r.Ok? ==> r.value.settings.gravity == s.gravity && r.value.settings.animated == s.animated
  {
    if !s.showArrow then Ok(Resolved(s, None))
    else
      var dir :=
        if s.arrowDirection == AUTO then GravityToArrowDirection(s.gravity)
        else Ok(s.arrowDirection);
      match dir
      case Err(e) => Err(e)
      case Ok(direction) =>
        var t := s.(
          arrowDirection := direction,
          arrowWidth := if s.arrowWidth == 0.0 then d.arrowWidth else s.arrowWidth,
          arrowHeight := if s.arrowHeight == 0.0 then d.arrowHeight else s.arrowHeight);
        var drawable :=
          if s.hasCustomArrowDrawable then None
          else Some(ArrowShape.NewDrawable(s.arrowColor, direction));
        Ok(Resolved(t, drawable))
  }

  /** A tooltip built with an AUTO arrow gets a default drawable whose
      outline is a real triangle, never the empty path. */
  lemma AutoArrowIsDrawn(s: Settings, d: Defaults, width: int, height: int)
    requires s.showArrow && s.arrowDirection == AUTO && !s.gravity.Other?
    requires !s.hasCustomArrowDrawable
    ensures Init(s, d).Ok?
    ensures |ArrowShape.UpdatePath(Init(s, d).value.drawable.value.direction, width, height).points| == 4
  {
  }

  datatype Orientation = Horizontal | Vertical

  datatype Child = ContentChild | ArrowChild

  /** The linear layout `configContentView` builds: its orientation and
      padding, the content view's padding, its children in order, and the
      arrow view's layout size. */
  datatype ContentLayout = ContentLayout(
    orientation: Orientation,
    padding: Int32,
    contentPadding: Int32,
    children: seq<Child>,
    arrowParams: Option<LayoutParams>)

  /** The padding around the layout: room for the pendulum animation when
      animated; otherwise the window padding (thumbtack) or none (original). */
  function LayoutPadding(v: Variant, s: Settings): (p: Int32)
    ensures s.animated ==> p == ToInt(s.animationPadding)
    ensures !s.animated && v == Thumbtack ==> p == ToInt(s.windowPadding)
    ensures !s.animated && v == DouglasJunior ==> p == 0
  {
    var raw := if s.animated then s.animationPadding
               else match v
                 case Thumbtack => s.windowPadding
                 case DouglasJunior => 0.0;
    ToInt(raw)
  }

  /** The arrow comes after the content when it points down or right. */
  predicate ArrowFollowsContent(direction: int) {
    direction == BOTTOM || direction == RIGHT
  }

  /** `configContentView`. */
  function BuildLayout(v: Variant, s: Settings): (l: ContentLayout)
    ensures l.orientation == Horizontal <==> s.arrowDirection == LEFT || s.arrowDirection == RIGHT
    ensures l.padding == LayoutPadding(v, s)
    ensures l.contentPadding == ToInt(s.padding)
    ensures !s.showArrow ==> l.children == [ContentChild] && l.arrowParams.None?
    ensures s.showArrow ==> multiset(l.children) == multiset{ContentChild, ArrowChild}
    ensures s.showArrow ==>
              (l.children == [ContentChild, ArrowChild] <==> ArrowFollowsContent(s.arrowDirection))
    ensures s.showArrow && IsVertical(s.arrowDirection) ==>
              l.arrowParams == Some(LayoutParams(ToInt(s.arrowWidth), ToInt(s.arrowHeight)))
    ensures s.showArrow && !IsVertical(s.arrowDirection) ==>
              l.arrowParams == Some(LayoutParams(ToInt(s.arrowHeight), ToInt(s.arrowWidth)))
  {
    var orientation :=
      if s.arrowDirection == LEFT || s.arrowDirection == RIGHT then Horizontal else Vertical;
    if s.showArrow then
      var params :=
        if IsVertical(s.arrowDirection) then LayoutParams(ToInt(s.arrowWidth), ToInt(s.arrowHeight))
        else LayoutParams(ToInt(s.arrowHeight), ToInt(s.arrowWidth));
      var children :=
        if ArrowFollowsContent(s.arrowDirection) then [ContentChild, ArrowChild]
        else [ArrowChild, ContentChild];
      ContentLayout(orientation, LayoutPadding(v, s), ToInt(s.padding), children, Some(params))
    else
      ContentLayout(orientation, LayoutPadding(v, s), ToInt(s.padding), [ContentChild], None)
  }

  /** The two variants pad the layout alike exactly when animated, or when
      the thumbtack window padding truncates to zero. */
  lemma PaddingVariantsAgree(s: Settings)
    ensures LayoutPadding(Thumbtack, s) == LayoutPadding(DouglasJunior, s) <==>
              s.animated || ToInt(s.windowPadding) == 0
  {
  }

  /** Whatever the direction, the arrow view's layout size makes the
      triangle reach `arrowHeight` pixels in its pointing direction and span
      `arrowWidth` across it. */
  lemma ArrowBoxFitsShape(v: Variant, s: Settings)
    requires s.showArrow && IsConcrete(s.arrowDirection)
    ensures var p := BuildLayout(v, s).arrowParams.value;
      && ArrowShape.Reach(s.arrowDirection, p.width, p.height) == ToInt(s.arrowHeight)
      && ArrowShape.Span(s.arrowDirection, p.width, p.height) == ToInt(s.arrowWidth)
  {
  }

  /** For an arrow resolved from a START, END, TOP or BOTTOM gravity, the
      layout lines the arrow up on the side of the body that faces the
      anchor: after the content exactly when the anchor is right of or below
      the popup. */
  lemma ArrowFacesAnchor(v: Variant, s: Settings, d: Defaults, anchor: RectF, width: Int32, height: Int32, margin: real)
    requires s.showArrow && s.arrowDirection == AUTO
    requires s.gravity.Start? || s.gravity.End? || s.gravity.Top? || s.gravity.Bottom?
    requires Placement.WellFormed(anchor) && margin >= 0.0 && width > 0 && height > 0
    ensures Init(s, d).Ok?
    ensures var t := Init(s, d).value.settings;
      var p := Placement.PopupLocation(s.gravity, anchor, width, height, margin).value;
      BuildLayout(v, t).children == [ContentChild, ArrowChild] <==>
        (p.x + width as real <= anchor.left || p.y + height as real <= anchor.top)
  {
    Placement.ArrowPointsTowardAnchor(s.gravity, anchor, width, height, margin);
  }

  /** The seam nudge of the arrow phase moves the arrow toward the content:
      backward exactly when the arrow follows the content in the layout. */
  lemma NudgeTowardContent(v: Variant, s: Settings)
    requires s.showArrow && IsConcrete(s.arrowDirection)
    ensures Placement.SeamNudge(s.arrowDirection) == -1 <==>
              BuildLayout(v, s).children == [ContentChild, ArrowChild]
  {
  }
}

=== FILE: geometry.dfy ===
/** Geometry utilities of the library (`SimpleTooltipUtils`): view rectangles,
    density conversion, width forcing, the gravity-to-arrow table and the
    root container lookup. */
module Geometry {
  import opened KotlinNum
  import opened TooltipTypes

  /** `android.graphics.RectF`. */
  datatype RectF = RectF(left: real, top: real, right: real, bottom: real) {
    function Width(): real { right - left }
    function Height(): real { bottom - top }
    function CenterX(): real { (left + right) * 0.5 }
    function CenterY(): real { (top + bottom) * 0.5 }
  }

  datatype PointF = PointF(x: real, y: real)

  /** What the host reports about a laid-out view: its top-left corner on the
      screen and in its window, and its measured size. */
  datatype ViewBox = ViewBox(
    screenX: Int32, screenY: Int32,
    windowX: Int32, windowY: Int32,
    measuredWidth: Int32, measuredHeight: Int32)

  /** The rectangle of a view at `(x, y)` with the given measured size. The
      right and bottom edges are `Int` sums and wrap like them. */
  function RectAt(x: Int32, y: Int32, w: Int32, h: Int32): (r: RectF)
    ensures r.left == x as real && r.top == y as real
    ensures InInt(x + w) ==> r.Width() == w as real
    ensures InInt(y + h) ==> r.Height() == h as real
  {
    RectF(x as real, y as real, Wrap32(x + w) as real, Wrap32(y + h) as real)
  }

  /** `calculeRectOnScreen`. */
  function RectOnScreen(v: ViewBox): (r: RectF)
    ensures r.left == v.screenX as real && r.top == v.screenY as real
    ensures InInt(v.screenX + v.measuredWidth) ==> r.Width() == v.measuredWidth as real
    ensures InInt(v.screenY + v.measuredHeight) ==> r.Height() == v.measuredHeight as real
  {
    RectAt(v.screenX, v.screenY, v.measuredWidth, v.measuredHeight)
  }

  /** `calculeRectInWindow`. */
  function RectInWindow(v: ViewBox): (r: RectF)
    ensures r.left == v.windowX as real && r.top == v.windowY as real
    ensures InInt(v.windowX + v.measuredWidth) ==> r.Width() == v.measuredWidth as real
    ensures InInt(v.windowY + v.measuredHeight) ==> r.Height() == v.measuredHeight as real
  {
    RectAt(v.windowX, v.windowY, v.measuredWidth, v.measuredHeight)
  }

  /** `pxFromDp`: the display density is a parameter of the model. */
  function PxFromDp(dp: real, density: real): (px: real)
    ensures density > 0.0 ==> px / density == dp
  {
    dp * density
  }

  /** `dpFromPx`. */
  function DpFromPx(px: real, density: real): (dp: real)
    requires density > 0.0
    ensures dp * density == px
  {
    px / density
  }

  /** The two conversions undo each other, in both orders. */
  lemma DensityRoundTrip(x: real, density: real)
    requires density > 0.0
    ensures DpFromPx(PxFromDp(x, density), density) == x
    ensures PxFromDp(DpFromPx(x, density), density) == x
  {
  }

  /** `ViewGroup.LayoutParams`, reduced to its width and height. */
  datatype LayoutParams = LayoutParams(width: int, height: int)

  /** `setWidth`: forces the layout width to the truncated `width`; a view
      without layout parameters gets new ones with its current height. */
  function SetWidth(params: Option<LayoutParams>, viewHeight: Int32, width: real): (p: LayoutParams)
    ensures 0.0 <= width <= INT_MAX as real ==>
              0 <= p.width && p.width as real <= width < p.width as real + 1.0
    ensures params.None? ==> p.height == viewHeight
    ensures params.Some? ==> p.height == params.value.height
  {
    match params
    case None => LayoutParams(ToInt(width), viewHeight)
    case Some(lp) => lp.(width := ToInt(width))
  }

  /** `tooltipGravityToArrowDirection`: the arrow direction AUTO resolves to. */
  function GravityToArrowDirection(g: Gravity): (r: Result<int>)
    ensures r.Ok? <==> !g.Other?
    ensures r.Ok? ==> IsConcrete(r.value)
    ensures r.Err? ==> r.error == IllegalArgument(GRAVITY_MESSAGE)
    ensures g.Start? ==> r == Ok(RIGHT)
    ensures g.End? ==> r == Ok(LEFT)
    ensures g.Top? ==> r == Ok(BOTTOM)
    ensures g.Bottom? || g.Center? ==> r == Ok(TOP)
  {
    match g
    case Start => Ok(RIGHT)
    case End => Ok(LEFT)
    case Top => Ok(BOTTOM)
    case Bottom => Ok(TOP)
    case Center => Ok(TOP)
    case Other(_) => Err(IllegalArgument(GRAVITY_MESSAGE))
  }

  /** A node of the host's view tree, as far as `findFrameLayout` looks at it. */
  datatype ViewNode = ViewNode(id: int, isFrameLayout: bool, children: seq<ViewNode>)

  /** `findFrameLayout`: the root's only child when that child is a
      `FrameLayout` (the case of a dialog), otherwise the root itself. */
  function FindFrameLayout(root: ViewNode): (r: ViewNode)
    ensures r != root ==> |root.children| == 1 && r == root.children[0]
    ensures (|root.children| == 1 && root.children[0].isFrameLayout) <==>
              (|root.children| == 1 && r == root.children[0] && r.isFrameLayout)
    ensures r == root || r.isFrameLayout
  {
    if |root.children| == 1 && root.children[0].isFrameLayout then root.children[0] else root
  }
}

=== FILE: kotlin_num.dfy ===
/** Kotlin/JVM numeric conversions the tooltip library relies on, written out
    explicitly over Dafny's unbounded `int` and exact `real`.
    `real` stands for Kotlin `Float`; IEEE rounding is not modelled. */
module KotlinNum {

  const INT_MIN: int := -0x8000_0000
  const INT_MAX: int := 0x7FFF_FFFF
  const TWO_32: int := 0x1_0000_0000

  /** A Kotlin `Int`. */
  type Int32 = n: int | INT_MIN <= n <= INT_MAX

  predicate InInt(n: int) {
    INT_MIN <= n <= INT_MAX
  }

  function Abs(x: real): real {
    if x < 0.0 then -x else x
  }

  /** Truncation toward zero of a real number. */
  function Trunc(x: real): (n: int)
    ensures x >= 0.0 ==> 0 <= n && n as real <= x < n as real + 1.0
    ensures x < 0.0 ==> n <= 0 && n as real - 1.0 < x <= n as real
  {
    if x >= 0.0 then x.Floor else -((-x).Floor)
  }

  /** Kotlin's `Float.toInt()`: rounds toward zero and saturates at the
      bounds of `Int`. */
  function ToInt(x: real): (n: Int32)
    ensures INT_MIN as real <= x <= INT_MAX as real ==>
              Abs(n as real) <= Abs(x) && Abs(x - n as real) < 1.0
    ensures INT_MIN as real <= x <= INT_MAX as real ==>
              (x >= 0.0 ==> n >= 0) && (x <= 0.0 ==> n <= 0)
    ensures x > INT_MAX as real ==> n == INT_MAX
    ensures x < INT_MIN as real ==> n == INT_MIN
  {
    if x > INT_MAX as real then INT_MAX
    else if x < INT_MIN as real then INT_MIN
    else Trunc(x)
  }

  /** `toInt()` of a whole number in range is that number. */
  lemma ToIntOfWhole(k: int)
    ensures InInt(k) ==> ToInt(k as real) == k
  {
  }

  /** `toInt()` of a value between two non-negative bounds lands on or below
      the upper bound and less than one below the lower one, within one of
      the value. */
  lemma ToIntBetween(lo: real, x: real, hi: real)
    ensures 0.0 <= lo <= x <= hi <= INT_MAX as real ==>
              && lo - 1.0 < ToInt(x) as real <= hi
              && Abs(ToInt(x) as real - x) < 1.0
  {
  }

  /** Two's-complement wrap-around of a Kotlin `Int` addition. */
  function Wrap32(n: int): (r: Int32)
    ensures InInt(n) ==> r == n
    ensures (n - r) % TWO_32 == 0
  {
    ((n - INT_MIN) % TWO_32) + INT_MIN
  }

  /** Kotlin `Int` division by two, which truncates toward zero. */
  function Half(n: int): (r: int)
    ensures n >= 0 ==> 0 <= r && 2 * r <= n <= 2 * r + 1
    ensures n < 0 ==> r <= 0 && 2 * r - 1 <= n <= 2 * r
  {
    if n >= 0 then n / 2 else -((-n) / 2)
  }

  /** The bits of an `Int` read as an unsigned 32-bit value. */
  function Unsigned(c: Int32): (u: int)
    ensures 0 <= u < TWO_32
    ensures (u - c) % TWO_32 == 0
  {
    if c < 0 then c + TWO_32 else c
  }

  /** The `Int` whose bits are the unsigned 32-bit value `u`. */
  function Signed(u: int): (c: Int32)
    requires 0 <= u < TWO_32
    ensures Unsigned(c) == u
  {
    if u > INT_MAX then u - TWO_32 else u
  }

  /** Kotlin `c.ushr(24)`: the top byte of the bits of `c`. */
  function TopByte(c: Int32): (b: int)
    ensures 0 <= b < 256
    ensures Unsigned(c) - b * 0x100_0000 < 0x100_0000
    ensures b * 0x100_0000 <= Unsigned(c)
  {
    Unsigned(c) / 0x100_0000
  }
}

=== FILE: lifecycle.dfy ===
/** The tooltip's lifecycle (`SimpleTooltip`): `show`, the posted display,
    the chain of one-shot layout listeners, `dismiss`, the host's dismiss
    callback `onDismiss`, the pendulum animation's restart rule and the touch
    interceptor's effect. Each host callback is an event; `Step` is the
    tooltip's reaction to one event. Both variants are covered: within the
    lifecycle they differ in how the posted display re-checks the root view
    and in whether the overlay's anchor highlight can be switched off.

    Two defects of the code as written are modelled next to their corrected
    form (`Revision`): `dismiss()` before the popup is displayed does not
    clean up, and a second `show()` attaches a second overlay that is never
    removed. */
module Lifecycle {
  import opened KotlinNum
  import opened TooltipTypes
  import opened Geometry
  import Touch
  import OverlayMask

  /** The one-shot global layout listeners, by the phase they drive. */
  datatype Phase = Location | Arrow | Animation | Reveal | AutoDismiss

  /** The code as written, or with the two lifecycle defects repaired. */
  datatype Revision = AsWritten | Corrected

  /** The constructor parameters the lifecycle reads. */
  datatype Config = Config(
    variant: Variant,
    gravity: Gravity,
    maxWidth: real,
    animated: bool,
    ignoreOverlay: bool,
    transparentOverlay: bool,
    overlayHighlightAnchorView: bool,
    highlightShape: int,
    overlayOffset: real,
    dismissOnInsideTouch: bool,
    dismissOnOutsideTouch: bool,
    modal: bool)

  /** The observable state of one tooltip.
      - `hasPopup`, `hasRoot`: whether the `popupWindow` and `rootView`
        references are still set;
      - `popupShowing`: whether the host popup window is on screen;
      - `pendingPosts`: display actions posted to the root and not yet run;
      - `listeners`: the layout listeners registered on the content layout
        (the host's list allows duplicates);
      - `showListener`, `dismissListener`: whether each user listener is
        still set, and `showCalls`, `dismissCalls` how often each was called;
      - `forcedWidth`: the width forced on the content view by `maxWidth`;
      - `located`, `arrowDone`, `contentVisible`, `animating`: progress of
        the phases;
      - `shows`: how many `show()` calls were accepted;
      - `overlays`: how many overlays are attached to the root view, and
        `overlayRef` whether the `overlay` reference is set. */
  datatype Tooltip = Tooltip(
    cfg: Config,
    dismissed: bool,
    hasPopup: bool,
    popupShowing: bool,
    hasRoot: bool,
    pendingPosts: nat,
    listeners: multiset<Phase>,
    showListener: bool,
    dismissListener: bool,
    showCalls: nat,
    dismissCalls: nat,
    forcedWidth: Option<Int32>,
    located: bool,
    arrowDone: bool,
    contentVisible: bool,
    animating: bool,
    shows: nat,
    overlays: nat,
    overlayRef: bool)

  /** A freshly built tooltip: the popup exists but is not showing, and the
      root view (the anchor's enclosing frame layout) is set. */
  function Init(cfg: Config, showListener: bool, dismissListener: bool): (t: Tooltip)
    ensures !t.dismissed && t.hasPopup && !t.popupShowing && t.hasRoot
    ensures t.listeners == multiset{} && t.overlays == 0 && t.shows == 0
  {
    Tooltip(cfg, false, true, false, true, 0, multiset{}, showListener, dismissListener,
            0, 0, None, false, false, false, false, 0, 0, false)
  }

  /** `isShowing`: the popup window still exists and the host has it on
      screen. */
  predicate IsShowing(t: Tooltip) {
    t.hasPopup && t.popupShowing
  }

  /** The five layout listeners, once each. */
  const AllPhases: multiset<Phase> := multiset{Location, Arrow, Animation, Reveal, AutoDismiss}

  /** No layout listener is registered twice. */
  predicate AtMostOnce(m: multiset<Phase>) {
    forall p :: m[p] <= 1
  }

  /** Removing each layout listener once, as `onDismiss` does: one
      registration of every phase goes, and a phase registered at most once
      is gone. */
  function Unregister(m: multiset<Phase>): (r: multiset<Phase>)
    ensures forall p :: r[p] == if m[p] > 0 then m[p] - 1 else 0
    ensures AtMostOnce(m) ==> r == multiset{}
  {
    AllPhasesOnce();
    m - AllPhases
  }

  lemma AllPhasesOnce()
    ensures forall p :: AllPhases[p] == 1
  {
    forall p ensures AllPhases[p] == 1 {
      match p
      case Location =>
      case Arrow =>
      case Animation =>
      case Reveal =>
      case AutoDismiss =>
    }
  }

  /** The host's dismiss callback `onDismiss`: stops the animation, detaches
      the overlay, notifies the dismiss listener once, unregisters each
      layout listener once (the host removes one registration per call) and
      drops the popup and root references. */
  function OnDismiss(t: Tooltip): (r: Tooltip)
    ensures r.dismissed && !r.hasPopup && !r.hasRoot && !IsShowing(r) && !r.animating
    ensures !r.overlayRef && !r.dismissListener
    ensures r.dismissCalls == t.dismissCalls + (if t.dismissListener then 1 else 0)
    ensures t.hasPopup ==>
              forall p :: r.listeners[p] == if t.listeners[p] > 0 then t.listeners[p] - 1 else 0
    ensures !t.hasPopup ==> r.listeners == t.listeners
    ensures r.overlays == (if t.hasRoot && t.overlayRef && t.overlays > 0 then t.overlays - 1 else t.overlays)
    ensures r.showCalls == t.showCalls && r.showListener == t.showListener && r.shows == t.shows
    ensures r.cfg == t.cfg
  {
    t.(dismissed := true,
       animating := false,
       overlays := DetachOverlay(t),
       overlayRef := false,
       hasRoot := false,
       dismissCalls := Notify(t.dismissCalls, t.dismissListener),
       dismissListener := false,
       listeners := RemainingListeners(t),
       hasPopup := false,
       popupShowing := false)
  }

  /** How often a user listener has been called once it is notified, if it
      is still set. */
  function Notify(calls: nat, listener: bool): nat {
    calls + (if listener then 1 else 0)
  }

  /** The overlays attached once `onDismiss` removed the current one from
      the root view. */
  function DetachOverlay(t: Tooltip): nat {
    if t.hasRoot && t.overlayRef && t.overlays > 0 then t.overlays - 1 else t.overlays
  }

  /** The listeners left once `onDismiss` unregistered each one through the
      popup's content view, when there still is a popup. */
  function RemainingListeners(t: Tooltip): multiset<Phase> {
    if t.hasPopup then Unregister(t.listeners) else t.listeners
  }

  /** `dismiss()`. As written it sets `dismissed` and asks the popup window
      to dismiss itself, which the host ignores unless the window is
      showing: `onDismiss` then never runs. Corrected, it runs `onDismiss`
      in that case too. A second call does nothing. */
  function Dismiss(rev: Revision, t: Tooltip): (r: Tooltip)
    ensures r.dismissed
    ensures t.dismissed ==> r == t
    ensures !t.dismissed && IsShowing(t) ==> r == OnDismiss(t)
    ensures !t.dismissed && !IsShowing(t) && rev == AsWritten ==> r == t.(dismissed := true)
    ensures !t.dismissed && rev == Corrected ==> r == OnDismiss(t)
    ensures r.cfg == t.cfg
  {
    if t.dismissed then t
    else if IsShowing(t) || rev == Corrected then OnDismiss(t)
    else t.(dismissed := true)
  }

  /** The outcome of one event: the next state, the exception thrown if
      any, and whether a touch was consumed. */
  datatype Reaction = Reaction(next: Tooltip, thrown: Option<TooltipError>, consumed: bool)

  /** `show()`: refuses a dismissed tooltip; otherwise registers the location
      and auto-dismiss listeners and, when there is a root view, posts the
      display to it. */
  function Show(t: Tooltip): (r: Reaction)
    ensures r.thrown.Some? <==> t.dismissed
    ensures r.thrown.Some? ==> r.thrown.value == IllegalArgument(DISMISSED_MESSAGE) && r.next == t
    ensures r.thrown.None? ==>
              && r.next.listeners == t.listeners + multiset{Location, AutoDismiss}
              && r.next.pendingPosts == t.pendingPosts + (if t.hasRoot then 1 else 0)
              && r.next.shows == t.shows + 1
              && r.next == t.(listeners := r.next.listeners, pendingPosts := r.next.pendingPosts,
                              shows := r.next.shows)
    ensures !r.consumed
  {
    if t.dismissed then Reaction(t, Some(IllegalArgument(DISMISSED_MESSAGE)), false)
    else
      var listeners := t.listeners + multiset{Location, AutoDismiss};
      var posts := t.pendingPosts + (if t.hasRoot then 1 else 0);
      var shows := t.shows + 1;
      Reaction(t.(listeners := listeners, pendingPosts := posts, shows := shows), None, false)
  }

  /** Whether a posted display shows the popup, given whether the root view
      is on screen when it runs. The thumbtack variant checks the root view
      captured at `show()`; the original variant re-reads the `rootView`
      field, which `onDismiss` clears. */
  predicate PostDisplays(t: Tooltip, rootShown: bool) {
    match t.cfg.variant
    case Thumbtack => rootShown && t.hasPopup
    case DouglasJunior => t.hasRoot && rootShown && t.hasPopup
  }

  /** Whether the popup is showing once a posted display has run. */
  predicate Displayed(t: Tooltip, rootShown: bool) {
    t.popupShowing || PostDisplays(t, rootShown)
  }

  /** Running one posted display. The host ignores `showAtLocation` on a
      window that is already showing. */
  function RunPost(t: Tooltip, rootShown: bool): (r: Tooltip)
    ensures IsShowing(r) <==>
              IsShowing(t) ||
              (t.pendingPosts > 0 && rootShown && t.hasPopup && (t.cfg.variant == Thumbtack || t.hasRoot))
    ensures r.pendingPosts == if t.pendingPosts > 0 then t.pendingPosts - 1 else 0
    ensures r == t.(pendingPosts := r.pendingPosts, popupShowing := r.popupShowing)
  {
    if t.pendingPosts == 0 then t
    else
      t.(pendingPosts := t.pendingPosts - 1, popupShowing := Displayed(t, rootShown))
  }

  /** `createOverlay`: unless overlays are ignored, a new overlay becomes the
      `overlay` reference and is attached to the root view when there is
      one. As written the previous overlay stays attached; corrected, it is
      detached first. */
  function CreateOverlay(rev: Revision, t: Tooltip): (r: Tooltip)
    ensures t.cfg.ignoreOverlay ==> r == t
    ensures !t.cfg.ignoreOverlay ==> r == t.(overlays := r.overlays, overlayRef := true)
    ensures r.listeners == t.listeners && r.cfg == t.cfg && r.located == t.located
    ensures r.hasPopup == t.hasPopup && r.dismissed == t.dismissed && r.popupShowing == t.popupShowing
    ensures r.overlayRef == (t.overlayRef || !t.cfg.ignoreOverlay)
    ensures !t.cfg.ignoreOverlay && rev == AsWritten ==>
              r.overlays == t.overlays + (if t.hasRoot then 1 else 0)
    ensures !t.cfg.ignoreOverlay && rev == Corrected ==>
              r.overlays == (if t.hasRoot && t.overlayRef && t.overlays > 0 then t.overlays
                             else t.overlays + (if t.hasRoot then 1 else 0))
  {
    if t.cfg.ignoreOverlay then t
    else t.(overlays := AttachedAfterCreate(rev, t), overlayRef := true)
  }

  /** How many overlays are attached once `createOverlay` has attached its
      new one. */
  function AttachedAfterCreate(rev: Revision, t: Tooltip): nat {
    if !t.hasRoot then t.overlays
    else if rev == Corrected && t.overlayRef && t.overlays > 0 then t.overlays
    else t.overlays + 1
  }

  /** The kind of overlay `createOverlay` builds. */
  datatype OverlayChoice = NoOverlay | PlainOverlay | MaskOverlay(mask: OverlayMask.Overlay)

  /** The overlay for a configuration: none when ignored, a plain view when
      transparent, otherwise a mask that highlights the anchor. The thumbtack
      variant can switch the highlight off; the original always highlights. */
  function OverlayFor(cfg: Config): (c: OverlayChoice)
    ensures c.NoOverlay? <==> cfg.ignoreOverlay
    ensures c.PlainOverlay? <==> !cfg.ignoreOverlay && cfg.transparentOverlay
    ensures c.MaskOverlay? ==>
              && c.mask.shapeCode == cfg.highlightShape && c.mask.offset == cfg.overlayOffset
              && c.mask.invalidated && c.mask.bitmap.None?
              && (c.mask.hasAnchor <==> cfg.variant == DouglasJunior || cfg.overlayHighlightAnchorView)
  {
    if cfg.ignoreOverlay then NoOverlay
    else if cfg.transparentOverlay then PlainOverlay
    else
      var highlighted := match cfg.variant
        case Thumbtack => cfg.overlayHighlightAnchorView
        case DouglasJunior => true;
      MaskOverlay(OverlayMask.NewOverlay(highlighted, cfg.highlightShape, cfg.overlayOffset))
  }

  /** Every layout listener does nothing once the popup is gone or the
      tooltip is dismissed. */
  predicate Inert(t: Tooltip) {
    !t.hasPopup || t.dismissed
  }

  /** Whether the content view is wider than a positive `maxWidth`. */
  predicate TooWide(cfg: Config, contentWidth: Int32) {
    cfg.maxWidth > 0.0 && contentWidth as real > cfg.maxWidth
  }

  /** The hand-over of the location listener to the arrow listener. */
  function HandOver(t: Tooltip): (r: Tooltip)
    ensures r.listeners == t.listeners - multiset{Location} + multiset{Arrow}
    ensures r.located && r.cfg == t.cfg && r.hasPopup == t.hasPopup && r.dismissed == t.dismissed
    ensures r.overlays == t.overlays && r.overlayRef == t.overlayRef
    ensures r.popupShowing == t.popupShowing
  {
    var listeners := t.listeners - multiset{Location} + multiset{Arrow};
    t.(listeners := listeners, located := true)
  }

  /** The location listener's work once the content fits: it hands over to
      the arrow listener and computes the popup's location, which raises for
      a gravity other than the five supported ones before the overlay is
      created; with a supported gravity it creates the overlay. */
  function Locate(rev: Revision, t: Tooltip): (r: Reaction)
    ensures !r.consumed && r.next.cfg == t.cfg
    ensures r.thrown.Some? <==> t.cfg.gravity.Other?
    ensures r.thrown.Some? ==> r.thrown.value == IllegalArgument(GRAVITY_MESSAGE)
    ensures r.next.listeners == t.listeners - multiset{Location} + multiset{Arrow}
    ensures r.next.located
    ensures Inert(r.next) == Inert(t)
    ensures r.next.overlayRef <==> t.overlayRef || (!t.cfg.gravity.Other? && !t.cfg.ignoreOverlay)
    ensures t.cfg.gravity.Other? ==> r.next.overlays == t.overlays
    ensures r.next.popupShowing == t.popupShowing
  {
    var h := HandOver(t);
    if t.cfg.gravity.Other? then Reaction(h, Some(IllegalArgument(GRAVITY_MESSAGE)), false)
    else Reaction(CreateOverlay(rev, h), None, false)
  }

  /** The location listener, given the content view's laid-out width. While
      the width exceeds a positive `maxWidth` it forces the width down and
      stays registered; otherwise it locates the popup. */
  function LocationPhase(rev: Revision, t: Tooltip, contentWidth: Int32): (r: Reaction)
    requires Location in t.listeners
    ensures !r.consumed && r.next.cfg == t.cfg
    ensures Inert(t) ==> r == Reaction(t, None, false)
    ensures r.thrown.Some? <==> !Inert(t) && !TooWide(t.cfg, contentWidth) && t.cfg.gravity.Other?
    ensures r.thrown.Some? ==> r.thrown.value == IllegalArgument(GRAVITY_MESSAGE)
    ensures !Inert(t) && TooWide(t.cfg, contentWidth) ==>
              r.next == t.(forcedWidth := r.next.forcedWidth) &&
              r.next.forcedWidth == Some(ToInt(t.cfg.maxWidth))
    ensures !Inert(t) && !TooWide(t.cfg, contentWidth) ==> r == Locate(rev, t) && !Inert(r.next)
    ensures r.next.popupShowing == t.popupShowing
  {
    if Inert(t) then Reaction(t, None, false)
    else if TooWide(t.cfg, contentWidth) then
      Reaction(t.(forcedWidth := Some(ToInt(t.cfg.maxWidth))), None, false)
    else Locate(rev, t)
  }

  /** The arrow listener hands over to the animation and reveal listeners. */
  function ArrowPhase(t: Tooltip): (r: Tooltip)
    requires Arrow in t.listeners
    ensures Inert(t) ==> r == t
    ensures !Inert(t) ==>
              && r.listeners[Arrow] == t.listeners[Arrow] - 1
              && r.listeners[Animation] == t.listeners[Animation] + 1
              && r.listeners[Reveal] == t.listeners[Reveal] + 1
              && r.listeners[Location] == t.listeners[Location]
              && r.listeners[AutoDismiss] == t.listeners[AutoDismiss]
              && r.arrowDone
              && r == t.(listeners := r.listeners, arrowDone := true)
    ensures r.cfg == t.cfg
  {
    if Inert(t) then t
    else
      var listeners := t.listeners - multiset{Arrow} + multiset{Animation, Reveal};
      t.(listeners := listeners, arrowDone := true)
  }

  /** The reveal listener notifies the show listener, clears it, and makes
      the content visible. */
  function RevealPhase(t: Tooltip): (r: Tooltip)
    requires Reveal in t.listeners
    ensures Inert(t) ==> r == t
    ensures !Inert(t) ==>
              && r.listeners[Reveal] == t.listeners[Reveal] - 1
              && (forall p :: p != Reveal ==> r.listeners[p] == t.listeners[p])
              && r.contentVisible && !r.showListener
              && r.showCalls + (if r.showListener then 1 else 0) ==
                   t.showCalls + (if t.showListener then 1 else 0)
              && r == t.(listeners := r.listeners, showCalls := r.showCalls,
                         showListener := false, contentVisible := true)
    ensures r.cfg == t.cfg
  {
    if Inert(t) then t
    else
      var listeners := t.listeners - multiset{Reveal};
      t.(listeners := listeners, showCalls := Notify(t.showCalls, t.showListener),
         showListener := false, contentVisible := true)
  }

  /** The animation listener starts the pendulum when animation is on. */
  function AnimationPhase(t: Tooltip): (r: Tooltip)
    requires Animation in t.listeners
    ensures Inert(t) ==> r == t
    ensures !Inert(t) ==>
              && r.listeners[Animation] == t.listeners[Animation] - 1
              && (forall p :: p != Animation ==> r.listeners[p] == t.listeners[p])
              && (r.animating <==> t.animating || t.cfg.animated)
              && r == t.(listeners := r.listeners, animating := r.animating)
    ensures r.cfg == t.cfg
  {
    if Inert(t) then t
    else
      var listeners := t.listeners - multiset{Animation};
      var animating := t.animating || t.cfg.animated;
      t.(listeners := listeners, animating := animating)
  }

  /** The auto-dismiss listener stays registered and dismisses the tooltip
      once its root view is no longer shown. */
  function AutoDismissPhase(rev: Revision, t: Tooltip, rootShown: bool): (r: Tooltip)
    ensures !Inert(t) && t.hasRoot && !rootShown ==> r == Dismiss(rev, t)
    ensures Inert(t) || !t.hasRoot || rootShown ==> r == t
    ensures r.dismissed <==> t.dismissed || (!Inert(t) && t.hasRoot && !rootShown)
    ensures r.listeners[AutoDismiss] == t.listeners[AutoDismiss] || r.listeners == Unregister(t.listeners)
    ensures r.cfg == t.cfg
  {
    if Inert(t) then t
    else if t.hasRoot && !rootShown then Dismiss(rev, t)
    else t
  }

  /** Host events. `Layout` is one call of a registered listener, with the
      content view's width and whether the root view is shown; `HostClose`
      is the host dismissing the window itself (an outside touch, the back
      key); `AnimationEnd` is the end of one pendulum swing; `Touch` reaches
      the popup's touch interceptor; `OverlayTouch` reaches the overlay views
      attached to the root view. */
  datatype Event =
    | ShowCall
    | DismissCall
    | Post(rootShown: bool)
    | Layout(phase: Phase, contentWidth: Int32, rootShown: bool)
    | HostClose
    | AnimationEnd
    | TouchEvent(action: Touch.Action, x: real, y: real, width: Int32, height: Int32)
    | OverlayTouch(action: Touch.Action)

  /** Whether the pendulum restarts after a swing. */
  predicate KeepsSwinging(t: Tooltip) {
    t.animating && !t.dismissed && IsShowing(t)
  }

  /** The pendulum restarts after a swing only while the tooltip is live and
      its window showing. */
  function EndSwing(t: Tooltip): (r: Tooltip)
    ensures r.animating <==> t.animating && !t.dismissed && IsShowing(t)
    ensures r == t.(animating := r.animating)
  {
    t.(animating := KeepsSwinging(t))
  }

  /** One call of a layout listener; a listener that is not registered is
      not called. */
  function Fire(rev: Revision, t: Tooltip, p: Phase, width: Int32, shown: bool): (r: Reaction)
    ensures r.thrown.Some? ==> p == Location && t.cfg.gravity.Other?
    ensures r.next.cfg == t.cfg
    ensures t.dismissed ==> r == Reaction(t, None, false)
    ensures !r.consumed
  {
    if p !in t.listeners then Reaction(t, None, false)
    else
      match p
      case Location => LocationPhase(rev, t, width)
      case Arrow => Reaction(ArrowPhase(t), None, false)
      case Reveal => Reaction(RevealPhase(t), None, false)
      case Animation => Reaction(AnimationPhase(t), None, false)
      case AutoDismiss => Reaction(AutoDismissPhase(rev, t, shown), None, false)
  }

  /** A touch reaching the interceptor, which acts only while the window
      shows. */
  function Touched(rev: Revision, t: Tooltip, action: Touch.Action, x: real, y: real,
                   width: Int32, height: Int32): (r: Reaction)
    ensures r.thrown.None? && r.next.cfg == t.cfg
    ensures !IsShowing(t) ==> r == Reaction(t, None, false)
    ensures IsShowing(t) ==>
              var d := Touch.Intercept(t.cfg.dismissOnInsideTouch, t.cfg.dismissOnOutsideTouch,
                                       action, x, y, width, height);
              && r.consumed == d.consumed
              && r.next == (if d.dismiss then Dismiss(rev, t) else t)
  {
    if !IsShowing(t) then Reaction(t, None, false)
    else
      var d := Touch.Intercept(t.cfg.dismissOnInsideTouch, t.cfg.dismissOnOutsideTouch,
                               action, x, y, width, height);
      Reaction(if d.dismiss then Dismiss(rev, t) else t, None, d.consumed)
  }

  /** The tooltip's reaction to one event. */
  function Step(rev: Revision, t: Tooltip, e: Event): (r: Reaction)
    ensures r.thrown.Some? ==>
              (e.ShowCall? && t.dismissed) || (e.Layout? && e.phase == Location && t.cfg.gravity.Other?)
    ensures r.next.cfg == t.cfg
    ensures t.dismissed ==> r.next.dismissed
    ensures r.consumed ==> e.TouchEvent? || e.OverlayTouch?
  {
    match e
    case ShowCall => Show(t)
    case DismissCall => Reaction(Dismiss(rev, t), None, false)
    case Post(shown) => Reaction(RunPost(t, shown), None, false)
    case Layout(p, width, shown) => Fire(rev, t, p, width, shown)
    case HostClose =>
      Reaction(if IsShowing(t) then OnDismiss(t) else t, None, false)
    case AnimationEnd => Reaction(EndSwing(t), None, false)
    case TouchEvent(action, x, y, width, height) => Touched(rev, t, action, x, y, width, height)
    case OverlayTouch(action) => Reaction(t, None, OverlayBlocks(t, action))
  }

  /** A touch on the overlay: every overlay attached to the root view,
      including any the tooltip no longer references, carries the overlay
      touch listener, so a touch there is consumed exactly when an overlay
      is attached and the tooltip is modal. */
  function OverlayBlocks(t: Tooltip, action: Touch.Action): (consumed: bool)
    ensures consumed <==> t.overlays > 0 && t.cfg.modal
  {
    t.overlays > 0 && Touch.OverlayConsumes(t.cfg.modal, action)
  }

  /** The lifecycle invariant: the references drop together, every phase
      runs only after the one before it, each user listener is called at
      most once, and no more overlays are attached than `show()` calls were
      accepted. Corrected, dismissal also always drops the popup, and at
      most the current overlay is attached. */
  predicate Inv(rev: Revision, t: Tooltip) {
    && (t.hasRoot ==> t.hasPopup)
    && (t.popupShowing ==> t.hasPopup)
    && (!t.hasPopup ==> t.dismissed && !t.animating && !t.overlayRef)
    && (!t.hasPopup ==> !t.dismissListener)
    && (!t.hasRoot && t.pendingPosts > 0 ==> !t.hasPopup)
    && (Arrow in t.listeners ==> t.located)
    && (Reveal in t.listeners || Animation in t.listeners ==> t.arrowDone)
    && (t.arrowDone ==> t.located)
    && (t.contentVisible || t.animating ==> t.arrowDone)
    && t.showCalls + (if t.showListener then 1 else 0) <= 1
    && t.dismissCalls + (if t.dismissListener then 1 else 0) <= 1
    && (t.showCalls > 0 ==> t.contentVisible)
    && t.overlays + t.listeners[Location] <= t.shows
    && (t.hasPopup && t.overlays > 0 ==> t.overlayRef && t.hasRoot)
    && (!t.hasPopup && t.shows <= 1 ==> t.overlays == 0)
    && (rev == Corrected ==>
          && (t.dismissed <==> !t.hasPopup)
          && t.overlays == (if t.overlayRef && t.hasRoot then 1 else 0))
  }

  lemma InitEstablishesInv(rev: Revision, cfg: Config, showListener: bool, dismissListener: bool)
    ensures Inv(rev, Init(cfg, showListener, dismissListener))
  {
  }

  lemma OnDismissKeepsInv(rev: Revision, t: Tooltip)
    requires Inv(rev, t) && t.hasPopup
    ensures Inv(rev, OnDismiss(t))
  {
  }

  lemma DismissKeepsInv(rev: Revision, t: Tooltip)
    requires Inv(rev, t)
    ensures Inv(rev, Dismiss(rev, t))
  {
    if !t.dismissed && (IsShowing(t) || rev == Corrected) {
      OnDismissKeepsInv(rev, t);
    }
  }

  lemma ShowKeepsInv(rev: Revision, t: Tooltip)
    requires Inv(rev, t)
    ensures Inv(rev, Show(t).next)
  {
  }

  lemma HandOverKeepsInv(rev: Revision, t: Tooltip)
    requires Inv(rev, t) && Location in t.listeners && !Inert(t)
    ensures Inv(rev, HandOver(t))
    ensures HandOver(t).overlays + HandOver(t).listeners[Location] < HandOver(t).shows
    ensures !Inert(HandOver(t))
  {
    var l := HandOver(t).listeners;
    assert l[Location] == t.listeners[Location] - 1;
  }

  lemma CreateOverlayKeepsInv(rev: Revision, t: Tooltip)
    requires Inv(rev, t) && t.overlays + t.listeners[Location] < t.shows && !Inert(t)
    ensures Inv(rev, CreateOverlay(rev, t))
  {
  }

  lemma LocationKeepsInv(rev: Revision, t: Tooltip, width: Int32)
    requires Inv(rev, t) && Location in t.listeners
    ensures Inv(rev, LocationPhase(rev, t, width).next)
  {
    if !Inert(t) && !TooWide(t.cfg, width) {
      var h := HandOver(t);
      HandOverKeepsInv(rev, t);
      if !t.cfg.gravity.Other? {
        CreateOverlayKeepsInv(rev, h);
        assert LocationPhase(rev, t, width).next == CreateOverlay(rev, h);
      }
    }
  }

  lemma ArrowKeepsInv(rev: Revision, t: Tooltip)
    requires Inv(rev, t) && Arrow in t.listeners
    ensures Inv(rev, ArrowPhase(t))
  {
    if !Inert(t) {
      var l := t.listeners - multiset{Arrow} + multiset{Animation, Reveal};
      assert l[Location] == t.listeners[Location];
      assert Arrow in l ==> Arrow in t.listeners;
    }
  }

  lemma RevealKeepsInv(rev: Revision, t: Tooltip)
    requires Inv(rev, t) && Reveal in t.listeners
    ensures Inv(rev, RevealPhase(t))
  {
    if !Inert(t) {
      var l := t.listeners - multiset{Reveal};
      assert l[Location] == t.listeners[Location];
      assert l <= t.listeners;
    }
  }

  lemma AnimationKeepsInv(rev: Revision, t: Tooltip)
    requires Inv(rev, t) && Animation in t.listeners
    ensures Inv(rev, AnimationPhase(t))
  {
    if !Inert(t) {
      var l := t.listeners - multiset{Animation};
      assert l[Location] == t.listeners[Location];
      assert l <= t.listeners;
    }
  }

  lemma FireKeepsInv(rev: Revision, t: Tooltip, p: Phase, width: Int32, shown: bool)
    requires Inv(rev, t)
    ensures Inv(rev, Fire(rev, t, p, width, shown).next)
  {
    if p in t.listeners {
      match p
      case Location => LocationKeepsInv(rev, t, width);
      case Arrow => ArrowKeepsInv(rev, t);
      case Reveal => RevealKeepsInv(rev, t);
      case Animation => AnimationKeepsInv(rev, t);
      case AutoDismiss => DismissKeepsInv(rev, t);
    }
  }

  lemma TouchedKeepsInv(rev: Revision, t: Tooltip, action: Touch.Action, x: real, y: real,
                        width: Int32, height: Int32)
    requires Inv(rev, t)
    ensures Inv(rev, Touched(rev, t, action, x, y, width, height).next)
  {
    DismissKeepsInv(rev, t);
  }

  lemma RunPostKeepsInv(rev: Revision, t: Tooltip, shown: bool)
    requires Inv(rev, t)
    ensures Inv(rev, RunPost(t, shown))
  {
  }

  lemma EndSwingKeepsInv(rev: Revision, t: Tooltip)
    requires Inv(rev, t)
    ensures Inv(rev, EndSwing(t))
  {
  }

  /** Every event preserves the invariant. */
  lemma StepPreservesInv(rev: Revision, t: Tooltip, e: Event)
    requires Inv(rev, t)
    ensures Inv(rev, Step(rev, t, e).next)
  {
    match e
    case ShowCall => ShowKeepsInv(rev, t);
    case DismissCall => DismissKeepsInv(rev, t);
    case Post(shown) => RunPostKeepsInv(rev, t, shown);
    case Layout(p, width, shown) => FireKeepsInv(rev, t, p, width, shown);
    case HostClose =>
      if IsShowing(t) {
        OnDismissKeepsInv(rev, t);
      }
    case AnimationEnd => EndSwingKeepsInv(rev, t);
    case TouchEvent(action, x, y, width, height) => TouchedKeepsInv(rev, t, action, x, y, width, height);
    case OverlayTouch(_) =>
  }

  /** Feeding the tooltip a sequence of events keeps the invariant, throws
      only at a dismissed tooltip or for an unsupported gravity, never undoes
      a dismissal, and calls each user listener at most once. */
  method Run(rev: Revision, t0: Tooltip, events: seq<Event>) returns (t: Tooltip, thrown: nat)
    requires Inv(rev, t0)
    ensures Inv(rev, t)
    ensures t.showCalls <= 1 && t.dismissCalls <= 1
    ensures t.cfg == t0.cfg
    ensures thrown > 0 ==> t.dismissed || t.cfg.gravity.Other?
    ensures t0.dismissed ==> t.dismissed
    ensures rev == Corrected && t.dismissed ==> !IsShowing(t) && t.overlays == 0
  {
    t := t0;
    thrown := 0;
    var i := 0;
    while i < |events|
      invariant 0 <= i <= |events|
      invariant Inv(rev, t)
      invariant t.cfg == t0.cfg
      invariant thrown > 0 ==> t.dismissed || t.cfg.gravity.Other?
      invariant t0.dismissed ==> t.dismissed
    {
      var r := Step(rev, t, events[i]);
      StepPreservesInv(rev, t, events[i]);
      if r.thrown.Some? {
        thrown := thrown + 1;
      }
      t := r.next;
      i := i + 1;
    }
  }

  /** `show()` throws exactly for a dismissed tooltip, and then changes
      nothing. */
  lemma ShowThrowsIffDismissed(rev: Revision, t: Tooltip)
    ensures Step(rev, t, ShowCall).thrown.Some? <==> t.dismissed
    ensures t.dismissed ==>
              Step(rev, t, ShowCall) == Reaction(t, Some(IllegalArgument(DISMISSED_MESSAGE)), false)
  {
  }

  /** Once dismissed, no layout listener changes anything. */
  lemma PhasesInertAfterDismiss(rev: Revision, t: Tooltip, p: Phase, width: Int32, shown: bool)
    requires t.dismissed
    ensures Step(rev, t, Layout(p, width, shown)) == Reaction(t, None, false)
  {
  }

  /** The location listener stays registered exactly while the content is
      wider than a positive `maxWidth`, forcing the width to `maxWidth`
      truncated; otherwise it is replaced by the arrow listener. */
  lemma LocationPhaseChaining(rev: Revision, t: Tooltip, width: Int32, shown: bool)
    requires Location in t.listeners && t.hasPopup && !t.dismissed
    ensures var n := Step(rev, t, Layout(Location, width, shown)).next;
      && (n.listeners[Location] == t.listeners[Location] <==>
            t.cfg.maxWidth > 0.0 && width as real > t.cfg.maxWidth)
      && (n.listeners[Location] == t.listeners[Location] ==>
            n.forcedWidth == Some(ToInt(t.cfg.maxWidth)) && n.listeners == t.listeners)
      && (n.listeners[Location] != t.listeners[Location] ==>
            && n.listeners[Location] == t.listeners[Location] - 1
            && n.listeners[Arrow] == t.listeners[Arrow] + 1
            && n.located)
  {
    if !(t.cfg.maxWidth > 0.0 && width as real > t.cfg.maxWidth) {
      var l := t.listeners - multiset{Location} + multiset{Arrow};
      assert l[Location] == t.listeners[Location] - 1;
      assert l[Arrow] == t.listeners[Arrow] + 1;
    }
  }

  /** Once the content has been laid out at the forced width, the next
      location pass hands over: the enforcement settles after one round. */
  lemma MaxWidthEnforcementSettles(rev: Revision, t: Tooltip, width: Int32, shown: bool)
    requires Location in t.listeners && t.hasPopup && !t.dismissed
    requires 0.0 < t.cfg.maxWidth && width as real > t.cfg.maxWidth
    ensures var n := Step(rev, t, Layout(Location, width, shown)).next;
      && n.forcedWidth.Some?
      && Location in n.listeners && n.hasPopup && !n.dismissed
      && Step(rev, n, Layout(Location, n.forcedWidth.value, shown)).next.listeners[Location] ==
           t.listeners[Location] - 1
  {
    var n := Step(rev, t, Layout(Location, width, shown)).next;
    var w := n.forcedWidth.value;
    assert w as real <= t.cfg.maxWidth;
    assert (n.listeners - multiset{Location} + multiset{Arrow})[Location] == t.listeners[Location] - 1;
  }

  /** The arrow listener replaces itself with the animation and reveal
      listeners; the reveal listener calls the show listener at most once. */
  lemma LaterPhasesChain(rev: Revision, t: Tooltip, width: Int32, shown: bool)
    requires Inv(rev, t)
    requires Arrow in t.listeners && t.hasPopup && !t.dismissed
    ensures var n := Step(rev, t, Layout(Arrow, width, shown)).next;
      var m := Step(rev, n, Layout(Reveal, width, shown)).next;
      && n.listeners == t.listeners - multiset{Arrow} + multiset{Animation, Reveal}
      && m.contentVisible && !m.showListener
      && m.showCalls == (if t.showListener then 1 else t.showCalls)
  {
  }

  /** Under the invariant the two variants' displays agree: a display is
      only pending while the root view is set, unless the popup is gone. */
  lemma PostVariantsAgree(rev: Revision, t: Tooltip, shown: bool)
    requires Inv(rev, t) && t.pendingPosts > 0
    ensures PostDisplays(t.(cfg := t.cfg.(variant := Thumbtack)), shown) ==
            PostDisplays(t.(cfg := t.cfg.(variant := DouglasJunior)), shown)
  {
  }

  /** The interceptor acts only while the window shows; when it dismisses
      a live tooltip, the tooltip ends up dismissed and hidden. */
  lemma TouchDismissHides(rev: Revision, t: Tooltip, action: Touch.Action, x: real, y: real,
                          width: Int32, height: Int32)
    requires Inv(rev, t)
    ensures var r := Step(rev, t, TouchEvent(action, x, y, width, height));
      && (!IsShowing(t) ==> r == Reaction(t, None, false))
      && (IsShowing(t) && (!t.dismissed || rev == Corrected) &&
          Touch.Intercept(t.cfg.dismissOnInsideTouch, t.cfg.dismissOnOutsideTouch,
                          action, x, y, width, height).dismiss ==>
            r.next.dismissed && !IsShowing(r.next))
  {
  }

  /** As written: `dismiss()` before the posted display runs leaves the
      tooltip marked dismissed but the popup showing, the dismiss listener
      never called, and every later `dismiss()` a no-op. */
  lemma DismissBeforeDisplayLeavesPopupShowing(cfg: Config)
    ensures var t0 := Init(cfg, true, true);
      var t1 := Step(AsWritten, t0, ShowCall).next;
      var t2 := Step(AsWritten, t1, DismissCall).next;
      var t3 := Step(AsWritten, t2, Post(true)).next;
      && t3.dismissed && IsShowing(t3)
      && t3.dismissCalls == 0 && t3.dismissListener
      && Step(AsWritten, t3, DismissCall).next == t3
  {
  }

  /** Corrected: the same sequence leaves the popup hidden and the dismiss
      listener called once. */
  lemma DismissBeforeDisplayCorrected(cfg: Config)
    ensures var t0 := Init(cfg, true, true);
      var t1 := Step(Corrected, t0, ShowCall).next;
      var t2 := Step(Corrected, t1, DismissCall).next;
      var t3 := Step(Corrected, t2, Post(true)).next;
      && t3.dismissed && !IsShowing(t3)
      && t3.dismissCalls == 1 && !t3.dismissListener
  {
  }

  /** An overlay left attached after dismissal, as `DoubleShowLeavesOverlay`
      produces, keeps swallowing every touch on the root view when the
      tooltip was modal, although the tooltip is gone. */
  lemma LeakedOverlayBlocksTouches(t: Tooltip, action: Touch.Action)
    requires t.dismissed && !IsShowing(t) && t.overlays > 0 && t.cfg.modal
    ensures Step(AsWritten, t, OverlayTouch(action)) == Reaction(t, None, true)
  {
  }

  /** No layout listener puts the window on screen. */
  lemma FireNeverShows(rev: Revision, t: Tooltip, p: Phase, width: Int32, shown: bool)
    ensures IsShowing(Fire(rev, t, p, width, shown).next) ==> IsShowing(t)
  {
    if p == Location || p == AutoDismiss {
      LocationOrAutoDismissNeverShows(rev, t, p, width, shown);
    } else {
      LaterPhasesNeverShow(rev, t, p, width, shown);
    }
  }

  /** The two listeners that can end in a dismissal. */
  lemma LocationOrAutoDismissNeverShows(rev: Revision, t: Tooltip, p: Phase, width: Int32, shown: bool)
    requires p == Location || p == AutoDismiss
    ensures IsShowing(Fire(rev, t, p, width, shown).next) ==> IsShowing(t)
  {
    if p in t.listeners {
      if p == Location {
        assert Fire(rev, t, p, width, shown) == LocationPhase(rev, t, width);
      } else {
        assert Fire(rev, t, p, width, shown).next == AutoDismissPhase(rev, t, shown);
        DismissNeverShows(rev, t);
      }
    }
  }

  /** The three listeners that only record progress. */
  lemma LaterPhasesNeverShow(rev: Revision, t: Tooltip, p: Phase, width: Int32, shown: bool)
    requires p == Arrow || p == Reveal || p == Animation
    ensures IsShowing(Fire(rev, t, p, width, shown).next) ==> IsShowing(t)
  {
    if p in t.listeners {
      if p == Arrow {
        assert Fire(rev, t, p, width, shown).next == ArrowPhase(t);
      } else if p == Reveal {
        assert Fire(rev, t, p, width, shown).next == RevealPhase(t);
      } else {
        assert Fire(rev, t, p, width, shown).next == AnimationPhase(t);
      }
    }
  }

  /** Dismissing never puts the window on screen. */
  lemma DismissNeverShows(rev: Revision, t: Tooltip)
    ensures IsShowing(Dismiss(rev, t)) ==> IsShowing(t)
  {
  }

  /** `isShowing` turns on only when a posted display runs with a display
      pending and the root view shown; `show()` itself, the layout phases and
      everything else never put the window on screen. */
  lemma OnlyPostShows(rev: Revision, t: Tooltip, e: Event)
    requires !IsShowing(t)
    ensures IsShowing(Step(rev, t, e).next) ==> e.Post? && e.rootShown && t.pendingPosts > 0
  {
    if e.DismissCall? {
      DismissNeverShows(rev, t);
    } else if e.Layout? {
      FireNeverShows(rev, t, e.phase, e.contentWidth, e.rootShown);
    }
  }

  /** `isShowing` is already true once the posted display has run, before
      the reveal phase makes the content visible. */
  lemma ShowingBeforeReveal(cfg: Config)
    ensures var t1 := Step(AsWritten, Init(cfg, false, false), ShowCall).next;
      var t2 := Step(AsWritten, t1, Post(true)).next;
      !IsShowing(Init(cfg, false, false)) && IsShowing(t2) && !t2.contentVisible
  {
  }

  /** Corrected: once the tooltip is dismissed no overlay is left to
      swallow touches, modal or not. */
  lemma DismissedOverlayLetsTouchesThrough(t: Tooltip, action: Touch.Action)
    requires Inv(Corrected, t) && t.dismissed
    ensures !Step(Corrected, t, OverlayTouch(action)).consumed
  {
  }

  /** As written: two `show()` calls register the location listener twice,
      each of its runs attaches an overlay, and closing the window detaches
      only the last one. */
  lemma DoubleShowLeavesOverlay(cfg: Config)
    requires !cfg.ignoreOverlay && !cfg.gravity.Other?
    ensures var t0 := Init(cfg, false, false);
      var t1 := Step(AsWritten, t0, ShowCall).next;
      var t2 := Step(AsWritten, t1, ShowCall).next;
      var t3 := Step(AsWritten, t2, Post(true)).next;
      var t4 := Step(AsWritten, t3, Layout(Location, 0, true)).next;
      var t5 := Step(AsWritten, t4, Layout(Location, 0, true)).next;
      var t6 := Step(AsWritten, t5, HostClose).next;
      t5.overlays == 2 && t6.dismissed && !IsShowing(t6) && t6.overlays == 1
  {
    var t0 := Init(cfg, false, false);
    var t1 := Step(AsWritten, t0, ShowCall).next;
    var t2 := Step(AsWritten, t1, ShowCall).next;
    assert t2.listeners[Location] == 2;
    var t3 := Step(AsWritten, t2, Post(true)).next;
    LocationAttaches(t3, 0, true);
    var t4 := Step(AsWritten, t3, Layout(Location, 0, true)).next;
    LocationAttaches(t4, 0, true);
    var t5 := Step(AsWritten, t4, Layout(Location, 0, true)).next;
    HostCloseDetachesOne(AsWritten, t5);
  }

  /** Closing the window detaches exactly the current overlay. */
  lemma HostCloseDetachesOne(rev: Revision, t: Tooltip)
    requires IsShowing(t) && t.hasRoot && t.overlayRef && t.overlays > 0
    ensures var n := Step(rev, t, HostClose).next;
      n.dismissed && !IsShowing(n) && n.overlays == t.overlays - 1
  {
  }

  /** As written, each run of the location listener on a live tooltip with
      a root view attaches one more overlay. */
  lemma LocationAttaches(t: Tooltip, width: Int32, shown: bool)
    requires Location in t.listeners && t.hasPopup && !t.dismissed && t.hasRoot
    requires !TooWide(t.cfg, width) && !t.cfg.gravity.Other? && !t.cfg.ignoreOverlay
    ensures var n := Step(AsWritten, t, Layout(Location, width, shown)).next;
      && n.overlays == t.overlays + 1 && n.overlayRef
      && n.listeners[Location] == t.listeners[Location] - 1
      && n.hasPopup && !n.dismissed && n.hasRoot && n.popupShowing == t.popupShowing
      && n.cfg == t.cfg
  {
    assert (t.listeners - multiset{Location} + multiset{Arrow})[Location] == t.listeners[Location] - 1;
  }

  /** Corrected: whatever happened before, dismissing leaves the tooltip
      hidden with no overlay attached and the dismiss listener called if it
      was set. One registration of each layout listener is removed, so a
      tooltip shown once has none left; whatever a repeated `show()` left
      registered can no longer do anything. */
  lemma CorrectedDismissCleansUp(t: Tooltip)
    requires Inv(Corrected, t)
    ensures var n := Dismiss(Corrected, t);
      && n.dismissed && !IsShowing(n) && n.overlays == 0 && !n.dismissListener
      && (!t.dismissed ==> n.dismissCalls == t.dismissCalls + (if t.dismissListener then 1 else 0))
      && (!t.dismissed ==>
            forall p :: n.listeners[p] == if t.listeners[p] > 0 then t.listeners[p] - 1 else 0)
      && (!t.dismissed && AtMostOnce(t.listeners) ==> n.listeners == multiset{})
      && (forall p, w, shown :: Step(Corrected, n, Layout(p, w, shown)) == Reaction(n, None, false))
  {
    var n := Dismiss(Corrected, t);
    forall p, w, shown
      ensures Step(Corrected, n, Layout(p, w, shown)) == Reaction(n, None, false)
    {
      PhasesInertAfterDismiss(Corrected, n, p, w, shown);
    }
  }
}

=== FILE: overlay_mask.dfy ===
/** The dimming overlay (`OverlayView`): the cut-out that highlights the
    anchor, and the cached mask bitmap with its `invalidated` flag. Pixels are
    not modelled: a frame records its size and its cut-out, the background
    fill being implied. The overlay holds a reference to its anchor view, not
    a copy of its geometry: every frame is computed from the anchor's
    geometry at the moment of drawing, which is a parameter here just like
    the overlay's own box. */
module OverlayMask {
  import opened KotlinNum
  import opened TooltipTypes
  import opened Geometry

  const HIGHLIGHT_SHAPE_OVAL: int := 0
  const HIGHLIGHT_SHAPE_RECTANGULAR: int := 1

  datatype Shape = Oval | Rectangle

  /** Only the rectangular code cuts a rectangle; every other code cuts an
      oval inscribed in the cut-out rectangle. */
  function ShapeOf(code: int): (s: Shape)
    ensures s == Rectangle <==> code == HIGHLIGHT_SHAPE_RECTANGULAR
    ensures s == Oval <==> code != HIGHLIGHT_SHAPE_RECTANGULAR
  {
    if code == HIGHLIGHT_SHAPE_RECTANGULAR then Rectangle else Oval
  }

  /** The anchor's window rectangle moved into the overlay's own coordinates
      and grown by `offset` on all four sides. */
  function CutOutRect(anchor: ViewBox, overlay: ViewBox, offset: real): (r: RectF)
    ensures r.Width() == anchor.measuredWidth as real + 2.0 * offset
    ensures r.Height() == anchor.measuredHeight as real + 2.0 * offset
    ensures r.left == RectInWindow(anchor).left - RectInWindow(overlay).left - offset
    ensures r.top == RectInWindow(anchor).top - RectInWindow(overlay).top - offset
  {
    var anchorRect := RectInWindow(anchor);
    var overlayRect := RectInWindow(overlay);
    var left := anchorRect.left - overlayRect.left;
    var top := anchorRect.top - overlayRect.top;
    RectF(left - offset, top - offset,
          left + anchor.measuredWidth as real + offset,
          top + anchor.measuredHeight as real + offset)
  }

  /** The cut-out is centred on the anchor: shifted back by the overlay's
      origin it has the anchor's centre, and for a non-negative offset it
      contains the whole anchor rectangle. */
  lemma CutOutCentredOnAnchor(anchor: ViewBox, overlay: ViewBox, offset: real)
    requires InInt(anchor.windowX + anchor.measuredWidth)
    requires InInt(anchor.windowY + anchor.measuredHeight)
    ensures var c := CutOutRect(anchor, overlay, offset);
      var a := RectInWindow(anchor);
      var o := RectInWindow(overlay);
      && c.CenterX() + o.left == a.CenterX()
      && c.CenterY() + o.top == a.CenterY()
      && (offset >= 0.0 <==>
            c.left + o.left <= a.left && a.right <= c.right + o.left &&
            c.top + o.top <= a.top && a.bottom <= c.bottom + o.top)
  {
  }

  datatype CutOut = CutOut(rect: RectF, shape: Shape)

  /** A rendered mask: its size, and the cut-out punched into the background
      fill, if any. */
  datatype Frame = Frame(width: int, height: int, cut: Option<CutOut>)

  datatype Bitmap = Bitmap(id: nat, frame: Frame, recycled: bool)

  /** The overlay view: its configuration (whether an anchor is highlighted,
      shape code, offset), the cached bitmap, the `invalidated` flag, and the
      ids of the bitmaps allocated and not yet recycled. */
  datatype Overlay = Overlay(
    hasAnchor: bool,
    shapeCode: int,
    offset: real,
    bitmap: Option<Bitmap>,
    invalidated: bool,
    live: set<nat>,
    nextId: nat)

  /** The constructor: no bitmap yet and `invalidated` set. */
  function NewOverlay(hasAnchor: bool, shapeCode: int, offset: real): (o: Overlay)
    ensures o.hasAnchor == hasAnchor && o.shapeCode == shapeCode && o.offset == offset
    ensures o.bitmap.None? && o.invalidated && o.live == {}
  {
    Overlay(hasAnchor, shapeCode, offset, None, true, {}, 0)
  }

  /** The mask the overlay should show when laid out as `me` while the
      anchor is laid out as `anchor`: the full background, cut around the
      anchor's current rectangle when there is an anchor. */
  function FrameFor(o: Overlay, me: ViewBox, anchor: ViewBox): (f: Frame)
    ensures f.width == me.measuredWidth && f.height == me.measuredHeight
    ensures f.cut.Some? <==> o.hasAnchor
    ensures f.cut.Some? ==>
              f.cut.value == CutOut(CutOutRect(anchor, me, o.offset), ShapeOf(o.shapeCode))
  {
    if o.hasAnchor then
      Frame(me.measuredWidth, me.measuredHeight,
            Some(CutOut(CutOutRect(anchor, me, o.offset), ShapeOf(o.shapeCode))))
    else Frame(me.measuredWidth, me.measuredHeight, None)
  }

  /** At most the current bitmap is held: every earlier one was recycled. */
  predicate NoLeak(o: Overlay) {
    && (forall id :: id in o.live ==> o.bitmap.Some? && o.bitmap.value.id == id)
    && (o.bitmap.Some? && !o.bitmap.value.recycled ==> o.bitmap.value.id in o.live)
    && (o.bitmap.Some? ==> o.bitmap.value.id < o.nextId)
  }

  /** `createWindowFrame`: nothing happens while the view has no area;
      otherwise a live previous bitmap is recycled and a fresh one of exactly
      the measured size is allocated holding the current frame, and
      `invalidated` is cleared. */
  function CreateWindowFrame(o: Overlay, me: ViewBox, anchor: ViewBox): (r: Overlay)
    ensures me.measuredWidth <= 0 || me.measuredHeight <= 0 ==> r == o
    ensures me.measuredWidth > 0 && me.measuredHeight > 0 ==>
              && r.bitmap == Some(Bitmap(o.nextId, FrameFor(o, me, anchor), false))
              && !r.invalidated
              && (NoLeak(o) && o.bitmap.Some? ==> o.bitmap.value.id !in r.live)
              && r.live == (if o.bitmap.Some? then o.live - {o.bitmap.value.id} else o.live) + {o.nextId}
    ensures NoLeak(o) ==> NoLeak(r)
  {
    if me.measuredWidth <= 0 || me.measuredHeight <= 0 then o
    else
      var live := match o.bitmap
        case Some(b) => o.live - {b.id}
        case None => o.live;
      o.(bitmap := Some(Bitmap(o.nextId, FrameFor(o, me, anchor), false)),
         live := live + {o.nextId},
         nextId := o.nextId + 1,
         invalidated := false)
  }

  /** Whether `dispatchDraw` regenerates the mask first. */
  predicate NeedsFrame(o: Overlay) {
    o.invalidated || o.bitmap.None? || o.bitmap.value.recycled
  }

  /** `dispatchDraw`: regenerates the frame when it is invalidated, absent or
      recycled, then draws the bitmap only if it is present and not
      recycled. Returns the new state and the frame drawn, if any. */
  function DispatchDraw(o: Overlay, me: ViewBox, anchor: ViewBox): (r: (Overlay, Option<Frame>))
    ensures NeedsFrame(o) ==> r.0 == CreateWindowFrame(o, me, anchor)
    ensures !NeedsFrame(o) ==> r.0 == o
    ensures r.1.Some? <==> r.0.bitmap.Some? && !r.0.bitmap.value.recycled
    ensures r.1.Some? ==> r.1 == Some(r.0.bitmap.value.frame)
    ensures NoLeak(o) ==> NoLeak(r.0)
  {
    var o1 := if NeedsFrame(o) then CreateWindowFrame(o, me, anchor) else o;
    var drawn := match o1.bitmap
      case Some(b) => if b.recycled then None else Some(b.frame)
      case None => None;
    (o1, drawn)
  }

  /** `onLayout`: marks the mask stale. */
  function OnLayout(o: Overlay): (r: Overlay)
    ensures r.invalidated && NeedsFrame(r)
    ensures r.bitmap == o.bitmap && r.live == o.live
  {
    o.(invalidated := true)
  }

  /** The host reclaiming the bitmap's memory behind the view's back. */
  function HostRecycle(o: Overlay): (r: Overlay)
    ensures r.bitmap.Some? ==> r.bitmap.value.recycled
    ensures NoLeak(o) ==> NoLeak(r)
  {
    match o.bitmap
    case None => o
    case Some(b) => o.(bitmap := Some(b.(recycled := true)), live := o.live - {b.id})
  }

  /** A layout followed by a draw at a positive size always shows the frame
      of the current geometry of both the overlay and the anchor, and leaves
      only that bitmap held. */
  lemma LayoutThenDrawIsFresh(o: Overlay, me: ViewBox, anchor: ViewBox)
    requires NoLeak(o)
    requires me.measuredWidth > 0 && me.measuredHeight > 0
    ensures var (o2, drawn) := DispatchDraw(OnLayout(o), me, anchor);
      drawn == Some(FrameFor(o, me, anchor)) && o2.live == {o.nextId} && !o2.invalidated
  {
    var o1 := OnLayout(o);
    var o2 := CreateWindowFrame(o1, me, anchor);
    if o.bitmap.Some? {
      assert o.live <= {o.bitmap.value.id};
      assert o1.live - {o.bitmap.value.id} == {};
    } else {
      assert o.live == {};
    }
  }

  /** A draw at zero area keeps whatever mask there was. */
  lemma EmptyBoxKeepsMask(o: Overlay, me: ViewBox, anchor: ViewBox)
    requires me.measuredWidth <= 0 || me.measuredHeight <= 0
    ensures DispatchDraw(o, me, anchor).0.bitmap == o.bitmap
    ensures DispatchDraw(o, me, anchor).0.invalidated == o.invalidated
  {
  }

  /** Without a layout of the overlay in between, a draw keeps showing the
      cut-out computed at the previous draw, wherever the anchor has moved
      since; the next layout and draw show the anchor where it is now. */
  lemma MovedAnchorWaitsForLayout(o: Overlay, me: ViewBox, a: ViewBox, b: ViewBox)
    requires NoLeak(o) && o.invalidated && o.hasAnchor
    requires a.windowX != b.windowX
    requires me.measuredWidth > 0 && me.measuredHeight > 0
    ensures var (o1, first) := DispatchDraw(o, me, a);
      var (o2, second) := DispatchDraw(o1, me, b);
      && first == Some(FrameFor(o, me, a))
      && second == first && second != Some(FrameFor(o1, me, b))
      && DispatchDraw(OnLayout(o2), me, b).1 == Some(FrameFor(o2, me, b))
  {
    var (o1, first) := DispatchDraw(o, me, a);
    assert !NeedsFrame(o1);
    assert CutOutRect(a, me, o.offset).left != CutOutRect(b, me, o.offset).left;
    LayoutThenDrawIsFresh(o1, me, b);
  }

  /** The `anchorView` setter as written: it stores the anchor and requests a
      redraw, but leaves `invalidated` alone. */
  function SetAnchorView(o: Overlay, hasAnchor: bool): (r: Overlay)
    ensures r.hasAnchor == hasAnchor
    ensures r.bitmap == o.bitmap && r.invalidated == o.invalidated
  {
    o.(hasAnchor := hasAnchor)
  }

  /** The setter as evidently intended: a new anchor also marks the mask
      stale. */
  function SetAnchorViewCorrected(o: Overlay, hasAnchor: bool): (r: Overlay)
    ensures r.hasAnchor == hasAnchor && r.invalidated
    ensures r.bitmap == o.bitmap && r.live == o.live
  {
    o.(hasAnchor := hasAnchor, invalidated := true)
  }

  /** As written, moving the highlight from anchor `a` to an anchor `b` at
      another horizontal position after a draw keeps drawing the cut-out of
      the old anchor. */
  lemma StaleCutOutAfterAnchorChange(o: Overlay, me: ViewBox, a: ViewBox, b: ViewBox)
    requires o.invalidated && o.hasAnchor
    requires a.windowX != b.windowX
    requires me.measuredWidth > 0 && me.measuredHeight > 0
    ensures var (o1, first) := DispatchDraw(o, me, a);
      var o2 := SetAnchorView(o1, true);
      var (_, second) := DispatchDraw(o2, me, b);
      second == first && second != Some(FrameFor(o2, me, b))
  {
    var (o1, first) := DispatchDraw(o, me, a);
    var o2 := SetAnchorView(o1, true);
    assert !NeedsFrame(o2);
    assert first == Some(FrameFor(o, me, a));
    assert CutOutRect(a, me, o.offset).left != CutOutRect(b, me, o.offset).left;
  }

  /** With the corrected setter, the next draw shows the cut-out of the new
      anchor. */
  lemma FreshCutOutAfterAnchorChangeCorrected(o: Overlay, me: ViewBox, hasAnchor: bool, b: ViewBox)
    requires me.measuredWidth > 0 && me.measuredHeight > 0
    ensures var o1 := SetAnchorViewCorrected(o, hasAnchor);
      DispatchDraw(o1, me, b).1 == Some(FrameFor(o1, me, b))
  {
  }
}

=== FILE: placement.dfy ===
/** The placement engine of both library variants: where the popup goes for
    each gravity (`calculatePopupLocation` / `calculePopupLocation`), and where
    the arrow goes inside the popup (the arithmetic of the arrow layout
    phase). */
module Placement {
  import opened KotlinNum
  import opened TooltipTypes
  import opened Geometry

  /** The popup's top-left corner, in window coordinates, for an anchor
      rectangle, the content's measured size and the margin. Any gravity but
      the five supported ones raises `IllegalArgumentException`. */
  function PopupLocation(g: Gravity, anchor: RectF, width: Int32, height: Int32, margin: real)
    : (r: Result<PointF>)
    ensures r.Err? <==> g.Other?
    ensures r.Err? ==> r.error == IllegalArgument(GRAVITY_MESSAGE)
    ensures r.Ok? && (g.Start? || g.End? || g.Center?) ==>
              r.value.y + height as real / 2.0 == anchor.CenterY()
    ensures r.Ok? && (g.Top? || g.Bottom? || g.Center?) ==>
              r.value.x + width as real / 2.0 == anchor.CenterX()
    ensures g.Start? ==> r.value.x + width as real == anchor.left - margin
    ensures g.End? ==> r.value.x == anchor.right + margin
    ensures g.Top? ==> r.value.y + height as real == anchor.top - margin
    ensures g.Bottom? ==> r.value.y == anchor.bottom + margin
  {
    var w := width as real;
    var h := height as real;
    match g
    case Start => Ok(PointF(anchor.left - w - margin, anchor.CenterY() - h / 2.0))
    case End => Ok(PointF(anchor.right + margin, anchor.CenterY() - h / 2.0))
    case Top => Ok(PointF(anchor.CenterX() - w / 2.0, anchor.top - h - margin))
    case Bottom => Ok(PointF(anchor.CenterX() - w / 2.0, anchor.bottom + margin))
    case Center => Ok(PointF(anchor.CenterX() - w / 2.0, anchor.CenterY() - h / 2.0))
    case Other(_) => Err(IllegalArgument(GRAVITY_MESSAGE))
  }

  /** The whole-pixel position the location phase hands to `popup.update`:
      each coordinate truncated toward zero, so a popup left of or above the
      window's origin is moved toward it, never away. */
  function PopupPosition(g: Gravity, anchor: RectF, width: Int32, height: Int32, margin: real)
    : (r: Result<(Int32, Int32)>)
    ensures r.Err? <==> g.Other?
    ensures r.Ok? ==>
              var loc := PopupLocation(g, anchor, width, height, margin).value;
              && (INT_MIN as real <= loc.x <= INT_MAX as real ==>
                    Abs(r.value.0 as real) <= Abs(loc.x) && Abs(loc.x - r.value.0 as real) < 1.0)
              && (INT_MIN as real <= loc.y <= INT_MAX as real ==>
                    Abs(r.value.1 as real) <= Abs(loc.y) && Abs(loc.y - r.value.1 as real) < 1.0)
  {
    match PopupLocation(g, anchor, width, height, margin)
    case Err(e) => Err(e)
    case Ok(loc) => Ok((ToInt(loc.x), ToInt(loc.y)))
  }

  predicate WellFormed(r: RectF) {
    r.left <= r.right && r.top <= r.bottom
  }

  /** With a non-negative margin and a content of positive size, the popup for
      START, END, TOP and BOTTOM lies entirely on its side of the anchor, and
      the arrow direction those gravities resolve to points from the popup
      toward the anchor. */
  lemma ArrowPointsTowardAnchor(g: Gravity, anchor: RectF, width: Int32, height: Int32, margin: real)
    requires g.Start? || g.End? || g.Top? || g.Bottom?
    requires WellFormed(anchor) && margin >= 0.0 && width > 0 && height > 0
    ensures var p := PopupLocation(g, anchor, width, height, margin).value;
      var d := GravityToArrowDirection(g).value;
      && (d == RIGHT <==> p.x + width as real <= anchor.left)
      && (d == LEFT <==> anchor.right <= p.x)
      && (d == BOTTOM <==> p.y + height as real <= anchor.top)
      && (d == TOP <==> anchor.bottom <= p.y)
  {
    var p := PopupLocation(g, anchor, width, height, margin).value;
    var w := width as real;
    var h := height as real;
    assert anchor.left <= anchor.CenterX() <= anchor.right;
    assert anchor.top <= anchor.CenterY() <= anchor.bottom;
  }

  /** The property the pendulum animation of `startAnimation` moves. */
  datatype Axis = TranslationX | TranslationY

  /** `translationY` for TOP and BOTTOM, `translationX` for every other
      gravity, including unsupported ones. */
  function AnimationAxis(g: Gravity): (a: Axis)
    ensures a == TranslationY <==> g.Top? || g.Bottom?
  {
    if g.Top? || g.Bottom? then TranslationY else TranslationX
  }

  /** The animation runs along the axis on which the margin separates the
      popup from the anchor: changing the margin moves the popup along that
      axis only. CENTER ignores the margin. */
  lemma MarginMovesAlongAnimationAxis(g: Gravity, anchor: RectF, width: Int32, height: Int32,
                                      m1: real, m2: real)
    requires !g.Other?
    requires m1 != m2
    ensures var p1 := PopupLocation(g, anchor, width, height, m1).value;
      var p2 := PopupLocation(g, anchor, width, height, m2).value;
      && (AnimationAxis(g) == TranslationY ==> p1.x == p2.x && p1.y != p2.y)
      && (AnimationAxis(g) == TranslationX && !g.Center? ==> p1.y == p2.y && p1.x != p2.x)
      && (g.Center? ==> p1 == p2)
  {
  }

  /** The point along x the arrow of a TOP or BOTTOM arrow aims at. The
      thumbtack variant moves it by `bias` from the anchor's lesser x edge
      toward the other one; the original aims at the centre. */
  function AnchorPointX(v: Variant, anchor: RectF, bias: real): (x: real)
    ensures v == DouglasJunior ==> x == anchor.CenterX()
  {
    match v
    case Thumbtack =>
      var lo := if anchor.left <= anchor.right then anchor.left else anchor.right;
      lo + Abs(anchor.right - anchor.left) * bias
    case DouglasJunior => anchor.CenterX()
  }

  /** A bias of one half is the centre; for a rectangle with `left <= right`,
      a bias of 0 is its left edge and 1 its right edge; and a bias in
      [0, 1] stays between the edges. */
  lemma BiasEndpoints(anchor: RectF, bias: real)
    ensures AnchorPointX(Thumbtack, anchor, 0.5) == anchor.CenterX()
    ensures anchor.left <= anchor.right ==> AnchorPointX(Thumbtack, anchor, 0.0) == anchor.left
    ensures anchor.left <= anchor.right ==> AnchorPointX(Thumbtack, anchor, 1.0) == anchor.right
    ensures 0.0 <= bias <= 1.0 && anchor.left <= anchor.right ==>
              anchor.left <= AnchorPointX(Thumbtack, anchor, bias) <= anchor.right
  {
    if 0.0 <= bias <= 1.0 && anchor.left <= anchor.right {
      var d := anchor.right - anchor.left;
      assert 0.0 <= d * bias <= d;
    }
  }

  /** The clamp of the arrow offset: `lo` is the padding plus 2dp, `pos` the
      offset that centres the arrow on the anchor, `size` the arrow's extent
      and `extent` the content's. */
  function ClampArrow(lo: real, pos: real, size: real, extent: real): (r: real)
    ensures pos <= lo ==> r == lo
    ensures lo < pos && pos + size + lo <= extent ==> r == pos
    ensures lo < pos && pos + size + lo > extent ==> r == extent - size - lo
  {
    if pos > lo then
      if pos + size + lo > extent then extent - size - lo else pos
    else lo
  }

  function Max(a: real, b: real): real { if a < b then b else a }
  function Min(a: real, b: real): real { if a < b then a else b }

  /** When the arrow fits between the two paddings, the clamp is the
      projection of `pos` onto the allowed interval, so the arrow never
      crosses the padding on either side; when it does not fit, the arrow
      ends at one of the two bounds. */
  lemma ClampStaysInsidePadding(lo: real, pos: real, size: real, extent: real)
    ensures var r := ClampArrow(lo, pos, size, extent);
      var hi := extent - size - lo;
      && (lo <= hi ==> lo <= r <= hi && r == Max(lo, Min(pos, hi)))
      && (lo > hi ==> r == lo || r == hi)
  {
  }

  /** What the arrow phase reads from the host: the anchor and the content
      layout as laid out, the content layout's paddings, the arrow view's
      size and position, and the display density. */
  datatype ArrowEnv = ArrowEnv(
    anchor: ViewBox,
    content: ViewBox,
    paddingLeft: Int32,
    paddingTop: Int32,
    arrowWidth: Int32,
    arrowHeight: Int32,
    arrowLeft: Int32,
    arrowTop: Int32,
    density: real)

  /** The unclamped arrow offset along x (`newX`) inside the content: the
      offset that puts the middle of the arrow on the anchor point, biased
      in the thumbtack variant. */
  function TargetX(v: Variant, env: ArrowEnv, bias: real): (x: real)
    ensures RectOnScreen(env.content).left + x + env.arrowWidth as real / 2.0
            == AnchorPointX(v, RectOnScreen(env.anchor), bias)
  {
    var anchorRect := RectOnScreen(env.anchor);
    var contentRect := RectOnScreen(env.content);
    var centerX := contentRect.Width() / 2.0 - env.arrowWidth as real / 2.0;
    centerX - (contentRect.CenterX() - AnchorPointX(v, anchorRect, bias))
  }

  /** The unclamped arrow offset along y (`newY`): the offset that puts the
      middle of the arrow on the anchor's centre; never biased. */
  function TargetY(env: ArrowEnv): (y: real)
    ensures RectOnScreen(env.content).top + y + env.arrowHeight as real / 2.0
            == RectOnScreen(env.anchor).CenterY()
  {
    var anchorRect := RectOnScreen(env.anchor);
    var contentRect := RectOnScreen(env.content);
    var centerY := contentRect.Height() / 2.0 - env.arrowHeight as real / 2.0;
    centerY - (contentRect.CenterY() - anchorRect.CenterY())
  }

  /** The 1-pixel nudge over the seam between arrow and body: toward the body,
      which is above a BOTTOM arrow and left of a RIGHT arrow. */
  function SeamNudge(direction: int): (n: int)
    ensures n == -1 || n == 1
    ensures n == -1 <==> direction == BOTTOM || direction == RIGHT
  {
    if IsVertical(direction) then
      if direction == BOTTOM then -1 else 1
    else
      if direction == RIGHT then -1 else 1
  }

  /** The clamped arrow offset truncated to `Int`: it stays between the two
      paddings up to truncation, and is within one pixel of an offset that
      already fits. */
  function ClampedOffset(lo: real, pos: real, size: real, extent: real): (n: Int32)
    ensures 0.0 <= lo <= extent - size - lo <= INT_MAX as real ==>
              lo - 1.0 < n as real <= extent - size - lo
    ensures 0.0 <= lo <= pos <= extent - size - lo <= INT_MAX as real ==> Abs(n as real - pos) < 1.0
  {
    var r := ClampArrow(lo, pos, size, extent);
    ClampStaysInsidePadding(lo, pos, size, extent);
    ToIntBetween(lo, r, extent - size - lo);
    ToInt(r)
  }

  /** A coordinate moved one pixel over the seam toward the body. */
  function Nudged(at: Int32, direction: int): (n: Int32)
    ensures n == ToInt(at as real + SeamNudge(direction) as real)
    ensures InInt(at + SeamNudge(direction)) ==> n == at + SeamNudge(direction)
  {
    ToIntOfWhole(at + SeamNudge(direction));
    ToInt(at as real + SeamNudge(direction) as real)
  }

  /** The arrow view's final position as the arrow phase sets it, after
      truncation to `Int`. A TOP or BOTTOM arrow is clamped along x and
      nudged along y; any other direction is clamped along y and nudged
      along x. Along the clamped axis the arrow keeps `lo` (the padding plus
      2dp) clear of the content's near edge and, up to truncation, of its
      far edge; when the unclamped offset already fits, the arrow's middle
      lands within one pixel of the anchor point. Along the other axis it
      moves exactly one pixel toward the body. */
  function AlignArrow(v: Variant, direction: int, env: ArrowEnv, bias: real): (p: (Int32, Int32))
    ensures IsVertical(direction) ==>
      var content := RectOnScreen(env.content);
      var lo := env.paddingLeft as real + PxFromDp(2.0, env.density);
      var hi := content.Width() - env.arrowWidth as real - lo;
      && (0.0 <= lo <= hi <= INT_MAX as real ==> lo - 1.0 < p.0 as real <= hi)
      && (0.0 <= lo <= TargetX(v, env, bias) <= hi <= INT_MAX as real ==>
            Abs(p.0 as real - TargetX(v, env, bias)) < 1.0)
      && (InInt(env.arrowTop + SeamNudge(direction)) ==> p.1 == env.arrowTop + SeamNudge(direction))
    ensures !IsVertical(direction) ==>
      var content := RectOnScreen(env.content);
      var lo := env.paddingTop as real + PxFromDp(2.0, env.density);
      var hi := content.Height() - env.arrowHeight as real - lo;
      && (0.0 <= lo <= hi <= INT_MAX as real ==> lo - 1.0 < p.1 as real <= hi)
      && (0.0 <= lo <= TargetY(env) <= hi <= INT_MAX as real ==>
            Abs(p.1 as real - TargetY(env)) < 1.0)
      && (InInt(env.arrowLeft + SeamNudge(direction)) ==> p.0 == env.arrowLeft + SeamNudge(direction))
  {
    var contentRect := RectOnScreen(env.content);
    if IsVertical(direction) then
      var x0 := env.paddingLeft as real + PxFromDp(2.0, env.density);
      (ClampedOffset(x0, TargetX(v, env, bias), env.arrowWidth as real, contentRect.Width()),
       Nudged(env.arrowTop, direction))
    else
      var y0 := env.paddingTop as real + PxFromDp(2.0, env.density);
      (Nudged(env.arrowLeft, direction),
       ClampedOffset(y0, TargetY(env), env.arrowHeight as real, contentRect.Height()))
  }

  /** The two variants place the arrow identically when the thumbtack
      variant's bias is one half, whatever the direction. */
  lemma VariantsAgreeAtHalfBias(direction: int, env: ArrowEnv, bias: real)
    ensures AlignArrow(Thumbtack, direction, env, 0.5) == AlignArrow(DouglasJunior, direction, env, bias)
  {
    BiasEndpoints(RectOnScreen(env.anchor), 0.5);
  }

  /** On an anchor of positive width any bias other than one half aims the
      thumbtack arrow away from the centre, so the two variants' unclamped
      offsets differ. */
  lemma BiasIsObservable(env: ArrowEnv, bias: real)
    requires bias != 0.5
    requires RectOnScreen(env.anchor).left < RectOnScreen(env.anchor).right
    ensures TargetX(Thumbtack, env, bias) != TargetX(DouglasJunior, env, bias)
  {
    var a := RectOnScreen(env.anchor);
    OffCentreBias(a.left, a.right, bias);
  }

  lemma OffCentreBias(left: real, right: real, bias: real)
    requires left < right && bias != 0.5
    ensures AnchorPointX(Thumbtack, RectF(left, 0.0, right, 0.0), bias) != (left + right) * 0.5
  {
    var d := right - left;
    assert AnchorPointX(Thumbtack, RectF(left, 0.0, right, 0.0), bias) == left + d * bias;
    assert (left + right) * 0.5 == left + d * 0.5;
    assert d * bias - d * 0.5 == d * (bias - 0.5);
    if bias > 0.5 {
      assert d * (bias - 0.5) > 0.0;
    } else {
      assert d * (bias - 0.5) < 0.0;
    }
  }
}

=== FILE: tooltip_types.dfy ===
/** Shared vocabulary: the error the library raises, gravities, arrow
    directions and the two library variants. */
module TooltipTypes {

  datatype Option<+T> = None | Some(value: T)

  /** Both exceptions the library throws are `IllegalArgumentException`s. */
  datatype TooltipError = IllegalArgument(message: string)

  datatype Result<+T> = Ok(value: T) | Err(error: TooltipError)

  const GRAVITY_MESSAGE: string := "Gravity must have be CENTER, START, END, TOP or BOTTOM."
  const DISMISSED_MESSAGE: string := "Tooltip has been dismissed."

  /** The two copies of the library: `Thumbtack` has an anchor bias and a
      window padding; `DouglasJunior` is the unbiased original. */
  datatype Variant = Thumbtack | DouglasJunior

  /** Requested placement of the tooltip body relative to the anchor. The
      library reads gravity as a plain `Int`; `Other` carries any code that is
      not one of the five it supports. */
  datatype Gravity = Start | End | Top | Bottom | Center | Other(code: int)

  // android.view.Gravity codes
  const GRAVITY_START: int := 0x0080_0003
  const GRAVITY_END: int := 0x0080_0005
  const GRAVITY_TOP: int := 0x30
  const GRAVITY_BOTTOM: int := 0x50
  const GRAVITY_CENTER: int := 0x11

  predicate SupportedCode(code: int) {
    code in {GRAVITY_START, GRAVITY_END, GRAVITY_TOP, GRAVITY_BOTTOM, GRAVITY_CENTER}
  }

  /** Decodes a gravity code the way the library's `when (gravity)` does. */
  function GravityOf(code: int): (g: Gravity)
    ensures g.Other? <==> !SupportedCode(code)
    ensures g.Other? ==> g.code == code
  {
    if code == GRAVITY_START then Start
    else if code == GRAVITY_END then End
    else if code == GRAVITY_TOP then Top
    else if code == GRAVITY_BOTTOM then Bottom
    else if code == GRAVITY_CENTER then Center
    else Other(code)
  }

  function CodeOf(g: Gravity): int {
    match g
    case Start => GRAVITY_START
    case End => GRAVITY_END
    case Top => GRAVITY_TOP
    case Bottom => GRAVITY_BOTTOM
    case Center => GRAVITY_CENTER
    case Other(c) => c
  }

  /** A gravity value the library can actually hold: `Other` only for codes
      outside the supported five. */
  predicate ValidGravity(g: Gravity) {
    g.Other? ==> !SupportedCode(g.code)
  }

  /** Decoding the code of a gravity gives the gravity back, so the five
      supported codes are pairwise distinct. */
  lemma GravityCodeRoundTrip(g: Gravity)
    requires ValidGravity(g)
    ensures GravityOf(CodeOf(g)) == g
  {
    match g
    case Start =>
    case End =>
    case Top =>
    case Bottom =>
    case Center =>
    case Other(c) =>
  }

  // ArrowDrawable direction codes
  const LEFT: int := 0
  const TOP: int := 1
  const RIGHT: int := 2
  const BOTTOM: int := 3
  const AUTO: int := 4

  /** One of the four directions an arrow can actually point in. */
  predicate IsConcrete(direction: int) {
    direction == LEFT || direction == TOP || direction == RIGHT || direction == BOTTOM
  }

  /** Arrows pointing up or down sit above or below the body. */
  predicate IsVertical(direction: int) {
    direction == TOP || direction == BOTTOM
  }
}

=== FILE: touch.dfy ===
/** Touch handling: the popup's touch interceptor (identical in both
    variants) and the overlay's touch listener. */
module Touch {
  import opened KotlinNum

  /** `MotionEvent` actions the interceptor tells apart. */
  datatype Action = Down | Outside | OtherAction(code: int)

  /** Whether the interceptor consumes the event, and whether it calls
      `dismiss()` first. */
  datatype Decision = Decision(consumed: bool, dismiss: bool)

  /** A touch position outside `[0, width) x [0, height)` of the content. */
  predicate OutsideContent(x: int, y: int, width: int, height: int) {
    x < 0 || x >= width || y < 0 || y >= height
  }

  /** The interceptor. The event coordinates are truncated to `Int` before
      they are compared with the content layout's measured size. */
  function Intercept(dismissOnInside: bool, dismissOnOutside: bool, action: Action,
                     x: real, y: real, width: Int32, height: Int32): (d: Decision)
    ensures d.dismiss ==> d.consumed
    ensures d.consumed && !d.dismiss <==>
              !dismissOnOutside &&
              ((action.Down? && OutsideContent(ToInt(x), ToInt(y), width, height)) || action.Outside?)
    ensures d.dismiss <==>
              action.Down? && dismissOnInside &&
              (dismissOnOutside || !OutsideContent(ToInt(x), ToInt(y), width, height))
  {
    var outside := OutsideContent(ToInt(x), ToInt(y), width, height);
    if !dismissOnOutside && action.Down? && outside then Decision(true, false)
    else if !dismissOnOutside && action.Outside? then Decision(true, false)
    else if action.Down? && dismissOnInside then Decision(true, true)
    else Decision(false, false)
  }

  /** With the default flags (both true) every press dismisses the tooltip
      and nothing else is consumed. */
  lemma DefaultFlagsDismissOnPress(action: Action, x: real, y: real, width: Int32, height: Int32)
    ensures Intercept(true, true, action, x, y, width, height) ==
              Decision(action.Down?, action.Down?)
  {
  }

  /** Because of the truncation, a press less than one pixel left of or above
      the content counts as inside it: with outside presses ignored, it still
      dismisses. */
  lemma SubPixelMarginCountsAsInside(x: real, y: real, width: Int32, height: Int32)
    requires -1.0 < x < 0.0 && 0.0 <= y < 1.0
    requires width > 0 && height > 0
    ensures Intercept(true, false, Down, x, y, width, height) == Decision(true, true)
  {
    assert ToInt(x) == 0 && ToInt(y) == 0;
  }

  /** The overlay's touch listener: a modal overlay swallows every touch, a
      non-modal one lets each through. */
  function OverlayConsumes(modal: bool, action: Action): (consumed: bool)
    ensures consumed <==> modal
  {
    modal
  }
}
